=== FILE: README.md ===
# Document lifecycle of `sistema-archivos`, in Dafny

This project models the document service of the `sistema-archivos` NestJS
application. It covers the upload, query and deletion of an owner's files
(`DocumentosService`) and the owner-id check and reply handling of the HTTP
handlers in front of it (`DocumentosController`). The model is a sequential
state machine over two stores:

- the directory tree on disk under the process's working directory, a map
  from paths (sequences of segments) to directories and files with their
  bytes (`FileTree`);
- the collection of document records, a sequence of `Documento` values
  holding the five required fields of the record schema
  (`src/documentos/schemas/documento.schema.ts:6-19`), kept in insertion
  order, which the model takes as the store's order (see "Left out").

Every operation takes a `State` and returns the `State` it leaves behind
together with a reply: the value, or the HTTP error the service or the
framework answers with. Errors do not roll anything back, so a failed
request can still leave changes behind, exactly as in the service.

Modules, one per concern:

- `Wrappers`: `Option`.
- `Decimal`: unpadded decimal rendering of integers, as `toString()`
  produces for the calendar components of a date. It has a parser that
  inverts it, so the rendering is proved injective.
- `FileTree`: paths and the tree, plus three operations:
  - `mkdirSync(…, { recursive: true })` (`MakeDirectories`);
  - `writeFileSync` (`WriteFile`);
  - the recursive removal of empty directories (`Prune`).
- `Documentos`: the service.
  - `Upload` is `cargarDocumentos`. It turns every file of a batch into a
    `Plan` (bucket, access path, bytes, record), then runs the loop
    (`StoreAll`, one `StoreOne` per file).
  - `Query` is `consultarDocumentos`.
  - `Delete` is `eliminarDocumento`, with `RemoveFromDisk` for the unlink
    and the prune.
- `Rut`: the owner-id pattern `^\d{7,8}-[\dkK]$`. It holds the pattern as a
  predicate and a left-to-right scanner proved to accept exactly it.
- `Controller`: the three handlers.
- `Lifecycle`: properties that relate several operations:
  - bucket injectivity;
  - record shape;
  - query after upload;
  - the store invariant `Valid` kept by deletion;
  - the prune clearing a whole chain, `uploads` included.

The clock, the UUID generator, `path.extname` and the environment's own
failures are inputs. They come from an `Env`:

- `draw(i)` gives the UUID, the local-time calendar components and the
  faults (directory creation, write, record creation) for the i-th file of
  a batch;
- `extname` is an uninterpreted function.

A deletion takes a `DeleteFaults`: whether unlinking the record's file
throws, and the directories whose listing or removal throws during the
upward walk.

UUID freshness is not proved. It is stated as the assumption `FreshDraws`:
36-character UUIDs, pairwise distinct, whose paths do not exist
yet. The properties that need it carry it as a hypothesis.

Nothing in the upward walk marks `uploads`
(`src/documentos/documentos.service.ts:153-161`), so it is removed like any
other empty directory. `Lifecycle.LastDeleteRemovesUploadsRoot` proves this
for a tree holding only one file and its bucket's directories: deleting that
file's document, with no disk call throwing, removes `uploads` too. When
`uploads` still holds another directory, even an empty one (a bucket left
behind by a failed write, say), the walk stops there and `uploads` stays.

## Model

| member | source | states |
|---|---|---|
| Decimal.NatToStringShape | src/documentos/documentos.service.ts:43-47 | A number's rendering is a non-empty run of ASCII digits with no leading zero, except for zero itself. |
| Decimal.ParseNatInvertsNatToString | src/documentos/documentos.service.ts:43-47 | Reading a natural number's rendering back gives the number. |
| Decimal.ParseIntInvertsIntToString | src/documentos/documentos.service.ts:43-47 | Reading an integer's rendering, sign included, back gives the integer. |
| Decimal.IntToStringInjective | src/documentos/documentos.service.ts:43-47 | Two integers render to the same segment if and only if they are equal. |
| FileTree.MakeDirectories | src/documentos/documentos.service.ts:59 | Recursive directory creation: each missing prefix of the path becomes a directory, and an existing file on the way makes it fail; its account is the lemmas below. |
| FileTree.MakeDirectoriesFrame | src/documentos/documentos.service.ts:59 | A successful creation keeps every existing node and adds only prefixes of the path. |
| FileTree.MakeDirectoriesOutcome | src/documentos/documentos.service.ts:59 | Creation succeeds exactly when no existing ancestor-or-self of the path is a file, and it then leaves every prefix a directory. |
| FileTree.MakeDirectoriesKeepsWellFormed | src/documentos/documentos.service.ts:59 | Every directory the creation adds hangs under a directory, so a well-formed tree stays well formed. |
| FileTree.MakeDirectoriesSpec | src/documentos/documentos.service.ts:59 | Recursive directory creation succeeds exactly when no existing ancestor-or-self of the path is a file (`CreationOutcome`). It then leaves every prefix a directory, keeps every existing node and adds nothing off the path (`CreationFrame`), and it keeps the tree well formed. |
| FileTree.WriteFile | src/documentos/documentos.service.ts:64 | A successful write leaves a file holding exactly the given bytes at the path. |
| FileTree.WriteFileSpec | src/documentos/documentos.service.ts:64 | A write fails exactly when the parent is not an existing directory or the target is a directory. A successful write changes no other node and keeps the tree well formed. |
| FileTree.Prune | src/documentos/documentos.service.ts:153-161 | The removal of empty directories, with the directories whose listing or removal throws as an input, stops at the starting directory or one of its ancestors, and it terminates. |
| FileTree.DirsShrink | src/documentos/documentos.service.ts:156-159 | Each directory removed before recursing on the parent strictly reduces the number of directories: the termination measure of the upward walk. |
| FileTree.PruneRemovesChain | src/documentos/documentos.service.ts:153-161 | The walk removes exactly the directories on the chain from the start up to, not including, the stop. Every removed node was a directory. No remaining node hangs under a removed one. |
| FileTree.PruneStops | src/documentos/documentos.service.ts:153-161 | The stop is the first place the walk could stop: every directory it passed over existed, and neither its listing nor its removal threw. There the walk met the working directory, a missing path or a directory that still has entries, or it failed. It fails exactly at a file (listing a file throws), at a directory whose listing throws, or at an empty directory whose removal throws. |
| FileTree.PruneSpec | src/documentos/documentos.service.ts:153-161 | Both halves of the walk's account together: what it removes (`ChainRemoved`), and where it first could stop and why (`StopExplained`). |
| FileTree.RemoveFileKeepsWellFormed | src/documentos/documentos.service.ts:137-139 | Unlinking a file, or nothing at a missing path, orphans no node. |
| FileTree.PruneKeepsWellFormed | src/documentos/documentos.service.ts:153-161 | The walk keeps a well-formed tree well formed. |
| Documentos.Bucket | src/documentos/documentos.service.ts:41-48 | The bucket is a six-segment path whose first segment is `uploads`. |
| Lifecycle.BucketsMeetAtTheMinute | src/documentos/documentos.service.ts:41-48 | Two uploads land in the same bucket if and only if their instants agree on year, month, day, hour and minute. |
| Lifecycle.PlannedRecordShape | src/documentos/documentos.service.ts:51-72 | A record's access path has seven segments. Its parent is the bucket of the record's own stored timestamp and its first segment is `uploads`. Its last segment is the assigned name followed by the original extension. The assigned name is the bare UUID. Owner and original name are the request's. |
| Documentos.EnsureDirectory | src/documentos/documentos.service.ts:57-60 | Any existing node at the bucket skips creation. Only an absent bucket can fail. |
| Lifecycle.EnsureDirectoryIdempotent | src/documentos/documentos.service.ts:57-60 | Once bucket creation succeeds, the bucket exists, and it is a directory unless a file already sat there. A second attempt changes nothing, whatever the environment does. |
| Documentos.Planned | src/documentos/documentos.service.ts:36-73 | The record a file's draw produces: owner, original name, the bare UUID as assigned name, the access path in the bucket of the draw's instant, and the instant itself; its shape is stated by `Lifecycle.PlannedRecordShape`. |
| Documentos.PlansShaped | src/documentos/documentos.service.ts:34-52 | Each file's plan puts its access path directly inside its bucket, carries the file's bytes and carries the record the file's draw produces. |
| Documentos.EnsureBucket | src/documentos/documentos.service.ts:57-60 | Bucket creation fails exactly when the bucket is absent and either the creation throws or a file sits on the way to it. On success it keeps every node and adds only directories on the way to the file. It leaves the bucket a directory unless a file already sat there, and it keeps the tree well formed. |
| Documentos.StoreOne | src/documentos/documentos.service.ts:56-75 | One file's step fails exactly when a failure cause exists, and it fails at the first stage, in the source's order, that has one (`StepFailure`). The directory stage fails when the bucket is absent and its creation throws or meets a file. The write stage fails when the write throws, the bucket is a file or the path is a directory. The record stage fails when the record creation throws or a required field is empty. With no cause the file is stored. A stored file appends exactly its record; a failed step appends none. After a success or a record-stage failure, the file holds the bytes. A directory-stage failure changes nothing. The step touches only nodes along its own path, adds no file other than its own and never turns a file into anything else. |
| Documentos.HindranceTraces | src/documentos/documentos.service.ts:34-76 | A cause that hinders a file partway through a batch already hindered it before the batch. Earlier files only add directories on their own paths, and files at paths apart from this one. |
| Documentos.StepKept | src/documentos/documentos.service.ts:34-76 | One more step keeps the loop's account of the batch: committed records, paired files, touched paths, fresh paths, well-formedness and consistency. |
| Documentos.StepTraced | src/documentos/documentos.service.ts:34-76 | One more step keeps the loop's trace. Every new or changed file is a tried file's path. Under apart paths, a failure's cause already held in the tree before the batch. |
| Documentos.StoreAll | src/documentos/documentos.service.ts:33-76 | The loop ends with every file stored or at the first failure. The records after the old ones are the first files' records in input order, and each has its file. A record-stage failure leaves its file on disk. Nothing is removed. Only the tried files' paths are touched, and every new or changed file is one of them. Under distinct paths, later files leave no trace. Under apart paths, the failed file was hindered at its stage in the tree before the batch. |
| Documentos.DistinctUuidsApart | src/documentos/documentos.service.ts:36-52 | Two access paths whose UUIDs differ and have one length are never one a prefix of the other. |
| Documentos.FreshDrawsApart | src/documentos/documentos.service.ts:36-52 | Distinct 36-character UUIDs give access paths none of which is a prefix of another, and none of them exists yet. |
| Documentos.FreshRecordsKeepDistinct | src/documentos/documentos.service.ts:67-73 | Records of fresh draws, appended to a consistent store, share their access path with no other record. |
| Documentos.AccountedAtPaths | src/documentos/documentos.service.ts:34-76 | The loop's account restated over the request's files (`PathsAccount`). The appended records are the first files' planned records in order, and each has its file. Nothing is removed. Every created or changed node lies on the way to one of the request's access paths. Well-formedness and consistency are kept. |
| Documentos.FreshAtPaths | src/documentos/documentos.service.ts:34-76 | Under fresh draws (`FreshPathsAccount`), the committed files hold their bytes and the paths after the failed file do not exist. The failed file was obstructed in the tree before the request, and access paths stay distinct. |
| Documentos.StoreRequest | src/documentos/documentos.service.ts:33-76 | The loop over a request's files gives the account over its access paths, and under fresh draws the fresh account too. |
| Documentos.Upload | src/documentos/documentos.service.ts:20-89 | The whole account is `UploadAccount`. An empty batch is NotFound and changes nothing. On success it returns exactly one record per file, in input order, appended to the store, and each file exists; under fresh draws each file holds its bytes. Any failure is InternalServerError, with the records of the earlier files kept; under fresh draws there is nothing for the later ones. Under fresh draws, a failure comes at the first file not stored, and that file was obstructed before the request. Its bucket creation throws or meets a file, its write throws or meets a file or a directory, or its record creation throws or lacks a required field. Also under fresh draws, the reply is success when no file is obstructed. On either path the file of every appended record exists, nothing is removed, and every node created or changed lies on the way to one of the request's access paths. Well-formedness and consistency are kept, and under fresh draws so are distinct paths. |
| Documentos.OwnedBy | src/documentos/documentos.service.ts:100 | The owner's filter holds exactly the stored records of that owner. |
| Lifecycle.OwnedByAppend | src/documentos/documentos.service.ts:100 | Filtering a concatenation is concatenating the filtered parts, so stored order is kept. |
| Lifecycle.OwnedByAll | src/documentos/documentos.service.ts:100 | A sequence holding only the owner's records filters to itself. |
| Lifecycle.OwnedByNone | src/documentos/documentos.service.ts:100 | A sequence holding only one owner's records filters to nothing for any other owner. |
| Documentos.Query | src/documentos/documentos.service.ts:95-114 | A query changes neither store. It succeeds if and only if some record belongs to the owner, and then lists the owner's records. Otherwise it is NotFound. |
| Lifecycle.QueryAfterAppend | src/documentos/documentos.service.ts:100-113 | After one owner's records are appended, that owner's query lists the earlier documents followed by the new ones. Every other owner's documents are unchanged. |
| Lifecycle.UploadThenQuery | src/documentos/documentos.service.ts:67-113 | After a successful upload, the owner's query lists the earlier documents and then exactly the uploaded ones, in input order. |
| Documentos.FindByName | src/documentos/documentos.service.ts:124-126 | The lookup finds the first record with the assigned name, and finds none exactly when no record has it. |
| Documentos.RemoveFromDisk | src/documentos/documentos.service.ts:137-143 | The disk half of a deletion: unlink whatever is at the path, failing with the tree unchanged on a directory or a throwing unlink, then walk upward from the parent; its account is `Documentos.DeleteTree`. |
| Documentos.Delete | src/documentos/documentos.service.ts:120-147 | A deletion answers the success message, NotFound with the service's message, or the framework's InternalServerError. |
| Documentos.DeleteNotFound | src/documentos/documentos.service.ts:124-131 | The reply is NotFound if and only if no record has the name, and then neither store changes. |
| Documentos.DeleteRemovesFirstMatch | src/documentos/documentos.service.ts:124-126 | When a record has the name, exactly the first such record is removed, whatever happens on disk afterwards. |
| Documentos.DeleteTree | src/documentos/documentos.service.ts:133-143 | A directory at the record's path, or an unlink that throws, fails and leaves the tree as it was. Otherwise the node at the path goes, exactly the empty chain above it up to the walk's stop goes, every other node is untouched, and the reply is success exactly when the walk did not fail. |
| Documentos.DeleteKeepsWellFormed | src/documentos/documentos.service.ts:133-143 | Deletion keeps a well-formed tree well formed, whatever throws on disk. |
| Documentos.RemoveFromDiskKeepsOtherFiles | src/documentos/documentos.service.ts:137-143 | The unlink and the walk keep every file other than the one at the record's path, with its bytes. |
| Documentos.DeleteKeepsConsistent | src/documentos/documentos.service.ts:124-143 | When records point to distinct existing files, deletion keeps every remaining record's file and keeps the paths distinct. |
| Documentos.RemoveFileSucceeds | src/documentos/documentos.service.ts:137-143 | Removing a file whose ancestors all exist succeeds when neither the unlink nor a listing or removal of a directory between the working directory and the file throws. |
| Documentos.DeleteSucceeds | src/documentos/documentos.service.ts:133-146 | On a well-formed, consistent store, deleting an existing document answers success unless the unlink or a call on a directory above its file throws; a throwing unlink always answers the generic InternalServerError. |
| Documentos.RemoveMissingSucceeds | src/documentos/documentos.service.ts:137-143 | Removing a path that no longer exists skips the unlink. The walk from its parent then succeeds unless that parent is a file or a listing or removal above it throws. |
| Documentos.DeleteMissingFileSucceeds | src/documentos/documentos.service.ts:133-146 | Deleting a document whose file is already gone answers success, unless the file's directory is a file or a call of the walk above it throws. |
| Lifecycle.DeleteKeepsValid | src/documentos/documentos.service.ts:124-146 | Deletion keeps the store invariant (well formed, consistent, distinct paths) whatever throws on disk, and on such a store deleting an existing document succeeds when no disk call on its way throws. |
| Lifecycle.PruneChain | src/documentos/documentos.service.ts:153-161 | Starting at the end of a bare chain of directories, the walk removes all of them, the first segment included, and stops at the working directory. |
| Lifecycle.LastDeleteRemovesUploadsRoot | src/documentos/documentos.service.ts:142-161 | Deleting the only document of a tree holding just its file and its bucket's directories, with no disk call throwing, answers success and leaves the tree empty: `uploads` is removed too. |
| Rut.IsValidRut | src/documentos/documentos.controller.ts:37 | The owner-id pattern as a predicate: 7 or 8 ASCII digits, a dash, and a digit, `k` or `K`, with nothing before or after; `Rut.MatchRut` is proved to accept exactly it. |
| Rut.StepTracksPrefix | src/documentos/documentos.controller.ts:37 | Reading one more character moves the scanner exactly as the description of the prefix read so far moves. |
| Rut.MatchRut | src/documentos/documentos.controller.ts:37 | The scan accepts an id if and only if it is 7 or 8 ASCII digits, a dash, and a digit, `k` or `K`, with nothing else. |
| Controller.HandleUpload | src/documentos/documentos.controller.ts:32-52 | An invalid id is NotFound before the service runs, and nothing changes. With a valid id, a request without a files object makes reading its field throw: the generic InternalServerError, and nothing changes. With a valid id and a files object, the handler's reply and state meet the service's whole account (`UploadAccount`) for the listed files, a missing `archivos` counting as empty. So a success is the service's listing, and any other failure is the service's InternalServerError with its committed prefix. Under fresh draws, the reply is success when no file is obstructed. Consistency is kept. |
| Controller.HandleQuery | src/documentos/documentos.controller.ts:57-67 | The query handler: the service's reply, with an empty listing turned into the handler's own NotFound; `Controller.HandleQueryIsQuery` shows that turn is never taken. |
| Controller.HandleQueryIsQuery | src/documentos/documentos.controller.ts:57-67 | The query handler answers exactly as the service. Its own NotFound, without a period, cannot be raised. |
| Controller.HandleDelete | src/documentos/documentos.controller.ts:71-80 | The delete handler leaves the state the service leaves, whatever throws on disk. It succeeds exactly when the service does, then answers its own message without a period. Every service error propagates unchanged. Its own NotFound cannot be raised. |

## Left out

- Logging (`console.log`, `console.error`) has no effect on either store.
- Time: the real clock and time zones are left out. The local-time calendar
  components of each file's instant come from `Env.draw`. Seconds and
  milliseconds reach the stored timestamp but never the path.
- UUIDs: their randomness is not modelled. Freshness is the stated
  assumption `FreshDraws`, and each property that needs it carries it as a
  hypothesis.
- `path.extname`: its rules are not modelled. It is an uninterpreted input
  function.
- `path.join`: string normalisation is left out. Paths are sequences of
  segments, and `ruta_acceso` is stored as its segments rather than as the
  joined string.
- Filesystem and database faults: the model makes no claim about their
  causes. On upload they are per-file flags (`Faults`) for the directory
  creation, the write and the record creation. On delete they are a
  `DeleteFaults` value: the unlink, and the set of directories whose listing
  or removal throws. `existsSync` never throws and is not given faults.
- A failed recursive directory creation is modelled as creating nothing.
  The real call may leave some of the directories it created.
- A failed write is modelled as creating nothing. The real call opens the
  file for writing first, so it may leave an empty or partial file at the
  path, and nothing removes it (`src/documentos/documentos.service.ts:64`,
  `83-87`).
- Record order: `find` and `findOneAndDelete` are called without a sort, so
  the database answers in its natural order, which it does not promise to
  be insertion order. The model takes it to be insertion order. The first
  match of `Documentos.FindByName` and the listing order in
  `Lifecycle.QueryAfterAppend` and `Lifecycle.UploadThenQuery` rest on that.
- Read-side database failures are left out: the lookup in `find` and
  `findOneAndDelete` always answers.
- The working directory: the prune stops at it. The real walk would list
  it, but it always holds the application itself, so it is never empty and
  never removed.
- The multipart middleware is not part of this model. That covers its
  10-file and 5 MB limits, and the `LIMIT_FILE_SIZE` mapping in the upload
  handler (`src/documentos/documentos.controller.ts:26-31`, `46-49`). The
  service's errors carry no such code, so for them that branch never
  applies and every error is rethrown unchanged.
- Framework wiring is not part of this model: `src/main.ts`,
  `src/app.module.ts`, `src/documentos/documentos.module.ts` and the
  request DTO with its own, looser id pattern.
- Concurrent requests, and crashes partway through an operation, are not
  modelled. Every request runs alone and to completion.
- The database's generated `_id` and the `toObject()` conversion: the
  listed records are the stored values themselves.
- Documentos.Upload: its reply does not say at which stage a failure
  happened, exactly like the service's. The fact that a record-stage
  failure leaves its file on disk is therefore stated on
  `Documentos.StoreAll`, whose result carries the stage.

=== FILE: controller.dfy ===
/** The HTTP handlers in front of the document service: the owner-id check
    on upload, the handling of a missing files object or `archivos` field,
    and what each handler does with the service's reply. The handlers' own
    messages carry no final period, unlike the service's. */
module Controller {
  import opened Wrappers
  import opened Documentos
  import Rut

  const InvalidRutMessage := "El RUT proporcionado no es válido."
  const EmptyQueryMessage := "No se encontraron documentos para el usuario especificado"
  const MissingDocumentMessage := "Documento no encontrado"
  const HandlerDeletedMessage := "Documento eliminado exitosamente"

  /** The files object the upload interceptor hands over; its `archivos`
      field is absent when the request names no such part. */
  datatype UploadedFiles = UploadedFiles(archivos: Option<seq<IncomingFile>>)

  /** The list the handler passes on: a missing field becomes empty. */
  function Listed(files: UploadedFiles): seq<IncomingFile>
  {
    files.archivos.GetOr([])
  }

  /** `POST /documentos/:rut_usuario`. An invalid id is NotFound before
      the service runs. A request without a files object at all (one that
      is not multipart) makes reading its field throw, which the handler
      rethrows as the generic server error with nothing changed; a files
      object without the field reaches the service as an empty list. The
      service's reply, its errors and the state it leaves come back as
      they are, so the whole of `UploadAccount` holds for the handler. */
  method HandleUpload(s: State, rut: string, files: Option<UploadedFiles>, env: Env)
    returns (r: Response<Listing>)
    ensures !Rut.IsValidRut(rut) ==> r == Response(s, Err(NotFound(InvalidRutMessage)))
    ensures Rut.IsValidRut(rut) && files.None? ==> r == Response(s, Err(InternalServerError(UnhandledMessage)))
    ensures Rut.IsValidRut(rut) && files.Some? && |Listed(files.value)| == 0 ==>
              r == Response(s, Err(NotFound(NoFilesMessage)))
    ensures r.reply.Ok? ==>
              && Rut.IsValidRut(rut) && files.Some? && files.value.archivos.Some?
              && var archivos := files.value.archivos.value;
              && r.reply.value.message == UploadedMessage
              && |r.reply.value.documentos| == |archivos|
              && r.state.records == s.records + r.reply.value.documentos
              && forall j | 0 <= j < |archivos| ::
                   r.reply.value.documentos[j] == PlannedAt(rut, archivos, env, j)
    ensures r.reply.Err? && Rut.IsValidRut(rut) && files.Some? && |Listed(files.value)| > 0 ==>
              r.reply.error == InternalServerError(UploadFailedMessage)
    ensures Rut.IsValidRut(rut) && files.Some? ==> UploadAccount(s, rut, Listed(files.value), env, r)
    ensures Consistent(s) ==> Consistent(r.state)
  {
    var valid := Rut.MatchRut(rut);
    if !valid {
      return Response(s, Err(NotFound(InvalidRutMessage)));
    }
    if files.None? {
      return Response(s, Err(InternalServerError(UnhandledMessage)));
    }
    r := Upload(s, rut, Listed(files.value), env);
  }

  /** `GET /documentos/:rut_usuario`: no id check; an empty list in an
      otherwise successful reply would become the handler's own NotFound. */
  function HandleQuery(s: State, rut: string): (r: Response<Listing>)
  {
    var result := Query(s, rut);
    match result.reply
    case Err(_) => result
    case Ok(listing) =>
      if |listing.documentos| == 0 then Response(result.state, Err(NotFound(EmptyQueryMessage)))
      else result
  }

  /** The handler's own NotFound can never be raised: the service already
      refuses an owner without documents, so the handler answers exactly
      as the service does. */
  lemma HandleQueryIsQuery(s: State, rut: string)
    ensures HandleQuery(s, rut) == Query(s, rut)
    ensures HandleQuery(s, rut).reply != Err(NotFound(EmptyQueryMessage))
  {
  }

  /** `DELETE /documentos/:uuid_archivo`: the service's errors propagate;
      once the service returns, the handler answers with its own success
      message. The service's success body is an object and so never falsy,
      which leaves the handler's NotFound branch without a way in. */
  function HandleDelete(s: State, name: string, f: DeleteFaults): (r: Response<string>)
    ensures r.state == Delete(s, name, f).state
    ensures r.reply.Ok? <==> Delete(s, name, f).reply.Ok?
    ensures r.reply.Ok? ==> r.reply.value == HandlerDeletedMessage
    ensures r.reply.Err? ==> r.reply == Delete(s, name, f).reply
    ensures r.reply != Err(NotFound(MissingDocumentMessage))
  {
    var result := Delete(s, name, f);
    match result.reply
    case Err(_) => result
    case Ok(_) => Response(result.state, Ok(HandlerDeletedMessage))
  }
}

=== FILE: decimal.dfy ===
/** Unpadded decimal rendering of integers, as JavaScript's
    `Number.prototype.toString()` produces it for the integer-valued
    calendar components of a date, together with a parser that inverts it. */
module Decimal {

  predicate IsDigit(c: char)
  {
    '0' <= c <= '9'
  }

  predicate AllDigits(s: string)
  {
    forall i | 0 <= i < |s| :: IsDigit(s[i])
  }

  function DigitChar(d: nat): (c: char)
    requires d < 10
    ensures IsDigit(c)
  {
    (48 + d) as char
  }

  function DigitValue(c: char): (d: nat)
    requires IsDigit(c)
    ensures d < 10
    ensures DigitChar(d) == c
  {
    c as int - 48
  }

  /** The shortest decimal numeral of `n`: no sign, no leading zero. */
  function NatToString(n: nat): (s: string)
    decreases n
  {
    if n < 10 then [DigitChar(n)] else NatToString(n / 10) + [DigitChar(n % 10)]
  }

  /** The numeral is non-empty, all digits, and has no leading zero. */
  lemma {:induction false} NatToStringShape(n: nat)
    ensures var s := NatToString(n);
            && |s| > 0
            && AllDigits(s)
            && (s[0] == '0' <==> n == 0)
    decreases n
  {
    if n >= 10 {
      NatToStringShape(n / 10);
    }
  }

  /** `n.toString()`: a leading '-' for negative values, then the numeral. */
  function IntToString(n: int): string
  {
    if n < 0 then "-" + NatToString(-n) else NatToString(n)
  }

  /** Reads a numeral of digits back into its value. */
  function ParseNat(s: string): nat
    requires AllDigits(s)
  {
    if |s| == 0 then 0 else 10 * ParseNat(s[..|s| - 1]) + DigitValue(s[|s| - 1])
  }

  /** Reads an optionally '-'-signed numeral back into its value. */
  function ParseInt(s: string): (n: int)
    requires |s| > 0
    requires AllDigits(if s[0] == '-' then s[1..] else s)
  {
    if s[0] == '-' then 0 - ParseNat(s[1..]) else ParseNat(s)
  }

  lemma {:induction false} ParseNatInvertsNatToString(n: nat)
    ensures AllDigits(NatToString(n)) && ParseNat(NatToString(n)) == n
    decreases n
  {
    NatToStringShape(n);
    if n >= 10 {
      var s := NatToString(n);
      assert s[..|s| - 1] == NatToString(n / 10);
      NatToStringShape(n / 10);
      ParseNatInvertsNatToString(n / 10);
    }
  }

  lemma ParseIntInvertsIntToString(n: int)
    ensures var s := IntToString(n);
            |s| > 0 && AllDigits(if s[0] == '-' then s[1..] else s) && ParseInt(s) == n
  {
    var s := IntToString(n);
    NatToStringShape(if n < 0 then -n else n);
    if n < 0 {
      assert s[1..] == NatToString(-n);
      ParseNatInvertsNatToString(-n);
    } else {
      ParseNatInvertsNatToString(n);
    }
  }

  /** Distinct integers have distinct renderings. */
  lemma IntToStringInjective(a: int, b: int)
    ensures IntToString(a) == IntToString(b) <==> a == b
  {
    if IntToString(a) == IntToString(b) {
      ParseIntInvertsIntToString(a);
      ParseIntInvertsIntToString(b);
    }
  }
}

=== FILE: documentos.dfy ===
/** The document service: upload of a batch of files for an owner, query of
    an owner's documents, and deletion of one document with the pruning of
    the directories it leaves empty.

    The service works on two stores: the directory tree on disk and the
    collection of document records. The clock, the UUID generator, the
    filesystem's and the database's own failures and `path.extname` are
    not modelled by the service: they arrive as an `Env` oracle. */
module Documentos {
  import opened Wrappers
  import opened FileTree
  import Decimal

  /** Local-time calendar components of an instant, as `Date`'s getters
      return them; `month` is zero-based like `getMonth()`. Seconds and
      milliseconds reach the stored timestamp but never the path. */
  datatype Stamp = Stamp(
    year: int, month: int, day: int, hour: int, minute: int,
    second: int, millisecond: int)

  /** A persisted document: the five required fields of the schema
      (`rut_usuario`, `nombre_original`, `nombre_asignado`, `ruta_acceso`,
      `fecha_hora_carga`). The access path is kept as its segments. */
  datatype Documento = Documento(
    rutUsuario: string,
    nombreOriginal: string,
    nombreAsignado: string,
    rutaAcceso: Path,
    fechaHoraCarga: Stamp)

  /** A file as the multipart middleware hands it over. */
  datatype IncomingFile = IncomingFile(originalname: string, buffer: seq<byte>)

  datatype State = State(tree: Tree, records: seq<Documento>)

  /** Failures of the environment itself (permission denied, disk full,
      database unavailable) for one file's directory creation, file write
      and record creation. */
  datatype Faults = Faults(mkdir: bool, write: bool, create: bool)

  /** What the environment supplies for one file: a fresh UUID, the
      current time and its faults. */
  datatype Draw = Draw(uuid: string, at: Stamp, faults: Faults)

  /** The oracles: the draw taken for the i-th file of a batch, and
      `path.extname`, left uninterpreted. */
  datatype Env = Env(draw: nat -> Draw, extname: string -> string)

  datatype HttpError = NotFound(message: string) | InternalServerError(message: string)

  datatype Reply<+T> = Ok(value: T) | Err(error: HttpError)

  /** Every request leaves a state behind, whether it succeeded or not. */
  datatype Response<T> = Response(state: State, reply: Reply<T>)

  /** The `{ message, documentos }` body of an upload or a query. */
  datatype Listing = Listing(message: string, documentos: seq<Documento>)

  const UploadsRoot: Segment := "uploads"

  const NoFilesMessage := "No se encontraron archivos para cargar."
  const UploadedMessage := "Documentos cargados exitosamente."
  const UploadFailedMessage := "Error al cargar los documentos."
  const NoDocumentsMessage := "No se encontraron documentos para el usuario especificado."
  const QueriedMessage := "Documentos consultados exitosamente."
  const DocumentNotFoundMessage := "Documento no encontrado."
  const DeletedMessage := "Documento eliminado exitosamente."
  /** The framework's body for an exception that is not an HTTP exception. */
  const UnhandledMessage := "Internal server error"

  // ---------------------------------------------------------------------
  // Paths

  /** The components of the bucket path, in order: year, one-based month,
      day, hour and minute. */
  function TimeComponents(at: Stamp): seq<int>
  {
    [at.year, at.month + 1, at.day, at.hour, at.minute]
  }

  /** Each number as an unpadded decimal segment. */
  function Rendered(xs: seq<int>): (r: seq<Segment>)
    ensures |r| == |xs|
    ensures forall k | 0 <= k < |xs| :: r[k] == Decimal.IntToString(xs[k])
  {
    if xs == [] then [] else [Decimal.IntToString(xs[0])] + Rendered(xs[1..])
  }

  /** `uploads/<year>/<month + 1>/<day>/<hour>/<minute>`. */
  function Bucket(at: Stamp): (p: Path)
    ensures |p| == 6 && p[0] == UploadsRoot
  {
    [UploadsRoot] + Rendered(TimeComponents(at))
  }

  /** The on-disk file name: the UUID followed by the original extension. */
  function StoredName(uuid: string, extension: string): Segment
  {
    uuid + extension
  }

  function AccessPath(f: IncomingFile, d: Draw, extname: string -> string): Path
  {
    Bucket(d.at) + [StoredName(d.uuid, extname(f.originalname))]
  }

  /** The record that the upload of `f` with draw `d` creates; the assigned
      name is the bare UUID, without the extension. */
  function Planned(rut: string, f: IncomingFile, d: Draw, extname: string -> string): Documento
  {
    Documento(rut, f.originalname, d.uuid, AccessPath(f, d, extname), d.at)
  }

  function PathAt(files: seq<IncomingFile>, env: Env, j: nat): Path
    requires j < |files|
  {
    AccessPath(files[j], env.draw(j), env.extname)
  }

  function PlannedAt(rut: string, files: seq<IncomingFile>, env: Env, j: nat): Documento
    requires j < |files|
  {
    Planned(rut, files[j], env.draw(j), env.extname)
  }

  // ---------------------------------------------------------------------
  // Upload

  /** The database's `required` validator: a required string must be
      non-empty. The path and the timestamp are always present. */
  predicate RequiredPresent(doc: Documento)
  {
    doc.rutUsuario != "" && doc.nombreOriginal != "" && doc.nombreAsignado != ""
  }

  /** `if (!existsSync(dir)) mkdirSync(dir, { recursive: true })`. Any
      existing node at `dir` skips the creation, so a second call is a
      no-op whatever the environment does. */
  function EnsureDirectory(t: Tree, dir: Path, fault: bool): (r: Option<Tree>)
    ensures dir in t ==> r == Some(t)
    ensures r.None? ==> dir !in t
  {
    if dir in t then Some(t)
    else if fault then None
    else MakeDirectories(t, dir)
  }

  /** Every record points at an existing file. */
  predicate Consistent(st: State)
  {
    forall x | x in st.records :: x.rutaAcceso in st.tree && st.tree[x.rutaAcceso].File?
  }

  /** No two records share an access path. */
  predicate DistinctPaths(st: State)
  {
    forall a, b | 0 <= a < b < |st.records| :: st.records[a].rutaAcceso != st.records[b].rutaAcceso
  }

  /** One file's share of a batch, fixed by its draw: the bucket, the
      access path inside it, the bytes, the record and the faults the
      environment holds for it. */
  datatype Plan = Plan(dir: Path, path: Path, bytes: seq<byte>, doc: Documento, faults: Faults)

  function PlanFor(rut: string, f: IncomingFile, d: Draw, extname: string -> string): Plan
  {
    Plan(Bucket(d.at), AccessPath(f, d, extname), f.buffer, Planned(rut, f, d, extname), d.faults)
  }

  /** The plans of a batch, in input order: the i-th file takes the i-th draw. */
  function Plans(rut: string, files: seq<IncomingFile>, env: Env): (ps: seq<Plan>)
    ensures |ps| == |files|
  {
    seq(|files|, j requires 0 <= j < |files| => PlanFor(rut, files[j], env.draw(j), env.extname))
  }

  /** The access path names an entry directly inside the bucket, and the
      record points at it. */
  predicate Shaped(pl: Plan)
  {
    pl.path != [] && Parent(pl.path) == pl.dir && pl.doc.rutaAcceso == pl.path
  }

  /** Every plan of a batch is shaped, and it carries the file's access
      path, bytes and record. */
  lemma PlansShaped(rut: string, files: seq<IncomingFile>, env: Env)
    ensures forall j | 0 <= j < |files| ::
              && Shaped(Plans(rut, files, env)[j])
              && Plans(rut, files, env)[j].path == PathAt(files, env, j)
              && Plans(rut, files, env)[j].bytes == files[j].buffer
              && Plans(rut, files, env)[j].doc == PlannedAt(rut, files, env, j)
  {
    forall j | 0 <= j < |files|
      ensures Shaped(Plans(rut, files, env)[j])
    {
      var d := env.draw(j);
      var p := AccessPath(files[j], d, env.extname);
      assert p[..|p| - 1] == Bucket(d.at);
    }
  }

  /** The step of a single file at which processing failed. */
  datatype Stage = DirectoryStage | WriteStage | RecordStage

  datatype StepOutcome =
    | Stored(state: State, doc: Documento)
    | Failed(state: State, stage: Stage)

  /** A file sits on the way to `dir`: at a non-empty prefix of it, `dir`
      itself included. */
  predicate FileOnTheWay(t: Tree, dir: Path)
  {
    exists q | q in t && q != [] && IsPrefix(q, dir) :: t[q].File?
  }

  /** Where one file's step fails, read off the tree it starts from, in
      the order the service's calls run: creating an absent bucket throws
      on a fault or a file on the way; the write throws on a fault, a
      bucket that is a file, or a directory at the path; the record
      creation throws on a fault or a missing required field. None when
      the step stores. */
  function StepFailure(t: Tree, pl: Plan): Option<Stage>
  {
    if pl.dir !in t && (pl.faults.mkdir || FileOnTheWay(t, pl.dir)) then Some(DirectoryStage)
    else if pl.faults.write || (pl.dir != [] && pl.dir in t && t[pl.dir].File?) || (pl.path in t && t[pl.path].Dir?) then
      Some(WriteStage)
    else if pl.faults.create || !RequiredPresent(pl.doc) then Some(RecordStage)
    else None
  }

  /** What can make a step fail at `stage`, as far as the tree and the plan
      show: a cause the tree must still have, or a fault, at that stage. */
  predicate Hinders(t: Tree, pl: Plan, stage: Stage)
  {
    match stage
    case DirectoryStage => pl.faults.mkdir || FileOnTheWay(t, pl.dir)
    case WriteStage => pl.faults.write || FileOnTheWay(t, pl.dir) || (pl.path in t && t[pl.path].Dir?)
    case RecordStage => pl.faults.create || !RequiredPresent(pl.doc)
  }

  /** What one file's step may do to the tree: keep every node, change
      only the node at its own path `p`, add nodes only along `p` and only
      directories above it, and never turn a file into something else. */
  predicate StepFrame(t: Tree, t2: Tree, p: Path)
  {
    && (forall q | q in t :: q in t2 && (t2[q] == t[q] || q == p))
    && (forall q | q in t2 && q !in t :: q != [] && IsPrefix(q, p))
    && (forall q | q in t && t[q].File? :: t2[q].File?)
    && (forall q | q in t2 && q !in t && q != p :: t2[q].Dir?)
  }

  /** Ensuring a plan's bucket, read off the tree before: it fails exactly
      when the bucket is absent and creating it faults or meets a file on
      the way; a success keeps every node, adds only directories above the
      access path, and leaves the bucket a directory unless it already was
      a file. */
  lemma EnsureBucket(t: Tree, pl: Plan)
    requires Shaped(pl)
    ensures var m := EnsureDirectory(t, pl.dir, pl.faults.mkdir);
            && (m.None? <==> pl.dir !in t && (pl.faults.mkdir || FileOnTheWay(t, pl.dir)))
            && (m.Some? ==> forall q | q in t :: q in m.value && m.value[q] == t[q])
            && (m.Some? ==> forall q | q in m.value && q !in t ::
                  q != [] && IsPrefix(q, pl.path) && q != pl.path && m.value[q].Dir?)
            && (m.Some? ==> (IsDirIn(m.value, pl.dir) <==> !(pl.dir != [] && pl.dir in t && t[pl.dir].File?)))
            && (m.Some? && WellFormed(t) ==> WellFormed(m.value))
  {
    PrefixesOfParent(pl.path);
    MakeDirectoriesSpec(t, pl.dir);
  }

  /** One iteration of the upload loop: ensure the bucket, write the bytes,
      create the record. A failure keeps whatever the earlier sub-steps did. */
  method StoreOne(s: State, pl: Plan) returns (r: StepOutcome)
    requires Shaped(pl)
    ensures r.Stored? ==> r.doc == pl.doc && r.state.records == s.records + [pl.doc]
    ensures r.Failed? ==> r.state.records == s.records
    ensures r.Stored? <==> StepFailure(s.tree, pl).None?
    ensures r.Failed? ==> StepFailure(s.tree, pl) == Some(r.stage)
    ensures r.Stored? ==> !pl.faults.write && !pl.faults.create && RequiredPresent(pl.doc)
    ensures r.Stored? ==> IsDirIn(r.state.tree, pl.dir)
    ensures r.Stored? || r.stage == RecordStage ==>
              pl.path in r.state.tree && r.state.tree[pl.path] == File(pl.bytes)
    ensures r.Failed? && r.stage == DirectoryStage ==>
              pl.dir !in s.tree && r.state.tree == s.tree
    ensures pl.dir !in s.tree && pl.faults.mkdir ==> r == Failed(s, DirectoryStage)
    ensures StepFrame(s.tree, r.state.tree, pl.path)
    ensures WellFormed(s.tree) ==> WellFormed(r.state.tree)
  {
    EnsureBucket(s.tree, pl);
    var made := EnsureDirectory(s.tree, pl.dir, pl.faults.mkdir);
    if made.None? {
      return Failed(s, DirectoryStage);
    }
    var t1 := made.value;
    WriteFileSpec(t1, pl.path, pl.bytes);
    var written := if pl.faults.write then None else WriteFile(t1, pl.path, pl.bytes);
    if written.None? {
      return Failed(State(t1, s.records), WriteStage);
    }
    var t2 := written.value;
    if pl.faults.create || !RequiredPresent(pl.doc) {
      return Failed(State(t2, s.records), RecordStage);
    }
    return Stored(State(t2, s.records + [pl.doc]), pl.doc);
  }

  /** Every node of `t` that is new or different from `s.tree` lies on the
      path of one of the first `n` plans. */
  predicate TouchedOnly(s: State, t: Tree, plans: seq<Plan>, n: nat)
    requires n <= |plans|
  {
    forall q | q in t && (q !in s.tree || t[q] != s.tree[q]) ::
      exists j | 0 <= j < n :: IsPrefix(q, plans[j].path)
  }

  /** The records after the old ones are those of the first plans, in
      input order. */
  predicate Committed(s: State, st: State, committed: seq<Documento>, plans: seq<Plan>)
  {
    && |committed| <= |plans|
    && st.records == s.records + committed
    && forall j | 0 <= j < |committed| :: committed[j] == plans[j].doc
  }

  /** Each of the first `k` plans has a file node at its access path. */
  predicate FilesPaired(t: Tree, plans: seq<Plan>, k: nat)
    requires k <= |plans|
  {
    forall j | 0 <= j < k :: plans[j].path in t && t[plans[j].path].File?
  }

  /** Nothing is removed, and no file turns into anything else. */
  predicate KeepsNodes(t: Tree, t2: Tree)
  {
    && (forall q | q in t :: q in t2)
    && (forall q | q in t && t[q].File? :: t2[q].File?)
  }

  /** No access path of the batch is a prefix of another, and none exists
      in `t` yet. */
  predicate Apart(t: Tree, plans: seq<Plan>)
  {
    && (forall a, b | 0 <= a < |plans| && 0 <= b < |plans| && a != b :: !IsPrefix(plans[a].path, plans[b].path))
    && (forall j | 0 <= j < |plans| :: plans[j].path !in t)
  }

  /** When the batch's paths are apart: the first `k` plans' files hold
      exactly their bytes, and the paths of the plans from `n` on do not
      exist. */
  predicate FreshAccount(s: State, t: Tree, plans: seq<Plan>, k: nat, n: nat)
    requires k <= n <= |plans|
  {
    Apart(s.tree, plans) ==>
      && (forall j | 0 <= j < k :: plans[j].path in t && t[plans[j].path] == File(plans[j].bytes))
      && (forall j | n <= j < |plans| :: plans[j].path !in t)
  }

  /** The nodes a step touches lie on its own path. */
  lemma StepKeepsTouched(s: State, t: Tree, t2: Tree, plans: seq<Plan>, i: nat)
    requires i < |plans|
    requires TouchedOnly(s, t, plans, i)
    requires StepFrame(t, t2, plans[i].path)
    ensures TouchedOnly(s, t2, plans, i + 1)
  {
  }

  /** A step on a path apart from the others leaves their nodes alone:
      earlier files keep their bytes and later paths stay absent. */
  lemma StepKeepsFresh(s: State, t: Tree, t2: Tree, plans: seq<Plan>, i: nat)
    requires i < |plans|
    requires FreshAccount(s, t, plans, i, i)
    requires StepFrame(t, t2, plans[i].path)
    ensures FreshAccount(s, t2, plans, i, i + 1)
    ensures plans[i].path in t2 && t2[plans[i].path] == File(plans[i].bytes) ==>
              FreshAccount(s, t2, plans, i + 1, i + 1)
  {
  }

  /** Appending the next plan's record extends the committed prefix. */
  lemma CommitStep(s: State, st: State, st2: State, committed: seq<Documento>, plans: seq<Plan>)
    requires Committed(s, st, committed, plans) && |committed| < |plans|
    requires st2.records == st.records + [plans[|committed|].doc]
    ensures Committed(s, st2, committed + [plans[|committed|].doc], plans)
  {
  }

  /** A step that leaves a file at its own path keeps the earlier files
      and pairs one more. */
  lemma PairStep(t: Tree, t2: Tree, plans: seq<Plan>, i: nat)
    requires i < |plans|
    requires FilesPaired(t, plans, i) && StepFrame(t, t2, plans[i].path)
    ensures FilesPaired(t2, plans, i)
    ensures plans[i].path in t2 && t2[plans[i].path].File? ==> FilesPaired(t2, plans, i + 1)
  {
  }

  /** Every file of `t` that is new or different from `s.tree` sits at
      the access path of one of the first `n` plans. */
  predicate NewFilesPlanned(s: State, t: Tree, plans: seq<Plan>, n: nat)
    requires n <= |plans|
  {
    forall q | q in t && t[q].File? && (q !in s.tree || t[q] != s.tree[q]) ::
      exists j | 0 <= j < n :: q == plans[j].path
  }

  /** A step adds no file other than its own. */
  lemma StepKeepsNewFiles(s: State, t: Tree, t2: Tree, plans: seq<Plan>, i: nat)
    requires i < |plans|
    requires NewFilesPlanned(s, t, plans, i)
    requires StepFrame(t, t2, plans[i].path)
    ensures NewFilesPlanned(s, t2, plans, i + 1)
  {
  }

  /** When the batch's paths are apart, whatever hinders a plan in the tree
      the earlier steps left already hindered it before the batch: those
      steps added directories, which stop nothing, and files at their own
      paths, none of which lies on the way to this plan's path, which is
      itself still absent. */
  lemma HindranceTraces(s: State, t: Tree, plans: seq<Plan>, k: nat, stage: Stage)
    requires k < |plans| && Shaped(plans[k]) && Apart(s.tree, plans)
    requires NewFilesPlanned(s, t, plans, k) && plans[k].path !in t
    requires Hinders(t, plans[k], stage)
    ensures Hinders(s.tree, plans[k], stage)
  {
    var pl := plans[k];
    if stage != RecordStage && FileOnTheWay(t, pl.dir) {
      var q :| q in t && q != [] && IsPrefix(q, pl.dir) && t[q].File?;
      assert IsPrefix(q, pl.path);
      forall j | 0 <= j < k
        ensures q != plans[j].path
      {
        assert !IsPrefix(plans[j].path, plans[k].path);
      }
      assert FileOnTheWay(s.tree, pl.dir);
    }
  }

  /** Something that can stop the j-th file of a request, read off the
      tree before the batch: one of its draw's faults, a missing required
      field of its record, a file on the way to its bucket, or a directory
      at its access path. */
  predicate Obstructed(t: Tree, rut: string, files: seq<IncomingFile>, env: Env, j: nat)
    requires j < |files|
  {
    var pl := PlanFor(rut, files[j], env.draw(j), env.extname);
    Hinders(t, pl, DirectoryStage) || Hinders(t, pl, WriteStage) || Hinders(t, pl, RecordStage)
  }

  /** What the loop over a batch leaves behind: the state, the records
      created so far, and the stage that failed, if any. */
  datatype Batch = Batch(state: State, committed: seq<Documento>, failure: Option<Stage>)

  /** The account the loop keeps of a batch: the committed records are the
      first plans' records; their files exist; a record failure leaves its
      file behind; nothing is removed; only the paths of the plans tried so
      far are touched; and, when the paths are apart, the committed files
      hold their bytes while the untried paths stay absent. */
  predicate Kept(s: State, plans: seq<Plan>, b: Batch)
  {
    var k := |b.committed|;
    var n := if b.failure.None? then k else k + 1;
    && n <= |plans|
    && Committed(s, b.state, b.committed, plans)
    && FilesPaired(b.state.tree, plans, k)
    && (b.failure == Some(RecordStage) ==>
          plans[k].path in b.state.tree && b.state.tree[plans[k].path] == File(plans[k].bytes))
    && KeepsNodes(s.tree, b.state.tree)
    && TouchedOnly(s, b.state.tree, plans, n)
    && FreshAccount(s, b.state.tree, plans, k, n)
    && (WellFormed(s.tree) ==> WellFormed(b.state.tree))
    && (Consistent(s) ==> Consistent(b.state))
  }

  /** Why a batch stopped: the only new files are at the paths of the
      plans tried so far, and, when the paths are apart, a failure was
      hindered at its stage already in the tree before the batch. */
  predicate Traced(s: State, plans: seq<Plan>, b: Batch)
  {
    var k := |b.committed|;
    var n := if b.failure.None? then k else k + 1;
    && n <= |plans|
    && NewFilesPlanned(s, b.state.tree, plans, n)
    && (b.failure.Some? && Apart(s.tree, plans) ==> Hinders(s.tree, plans[k], b.failure.value))
  }

  /** Both halves of the loop's account. */
  predicate Accounted(s: State, plans: seq<Plan>, b: Batch)
  {
    Kept(s, plans, b) && Traced(s, plans, b)
  }

  /** The batch after one more step: a stored file joins the committed
      records, a failure ends the batch at its stage. */
  function Advance(b: Batch, step: StepOutcome): Batch
  {
    match step
    case Stored(st, doc) => Batch(st, b.committed + [doc], None)
    case Failed(st, stage) => Batch(st, b.committed, Some(stage))
  }

  /** What `StoreOne` promises about the next plan's step. */
  predicate StepPromise(b: Batch, pl: Plan, step: StepOutcome)
  {
    && (step.Stored? ==> step.doc == pl.doc && step.state.records == b.state.records + [pl.doc])
    && (step.Failed? ==> step.state.records == b.state.records)
    && (step.Failed? ==> StepFailure(b.state.tree, pl) == Some(step.stage))
    && (step.Stored? || step.stage == RecordStage ==>
          pl.path in step.state.tree && step.state.tree[pl.path] == File(pl.bytes))
    && StepFrame(b.state.tree, step.state.tree, pl.path)
    && (WellFormed(b.state.tree) ==> WellFormed(step.state.tree))
  }

  /** One step keeps the first half of the account. */
  lemma StepKept(s: State, plans: seq<Plan>, b: Batch, step: StepOutcome)
    requires Kept(s, plans, b) && b.failure.None? && |b.committed| < |plans|
    requires Shaped(plans[|b.committed|]) && StepPromise(b, plans[|b.committed|], step)
    ensures Kept(s, plans, Advance(b, step))
  {
    var i := |b.committed|;
    var t, t2 := b.state.tree, step.state.tree;
    StepKeepsTouched(s, t, t2, plans, i);
    StepKeepsFresh(s, t, t2, plans, i);
    PairStep(t, t2, plans, i);
    if step.Stored? {
      CommitStep(s, b.state, step.state, b.committed, plans);
      forall x | x in step.state.records && x !in b.state.records
        ensures x.rutaAcceso in t2 && t2[x.rutaAcceso].File?
      {
        assert x == plans[i].doc;
      }
    }
  }

  /** One step keeps the second half of the account. */
  lemma StepTraced(s: State, plans: seq<Plan>, b: Batch, step: StepOutcome)
    requires Kept(s, plans, b) && Traced(s, plans, b) && b.failure.None? && |b.committed| < |plans|
    requires Shaped(plans[|b.committed|]) && StepPromise(b, plans[|b.committed|], step)
    ensures Traced(s, plans, Advance(b, step))
  {
    var i := |b.committed|;
    var t, t2 := b.state.tree, step.state.tree;
    StepKeepsNewFiles(s, t, t2, plans, i);
    if step.Failed? && Apart(s.tree, plans) {
      HindranceTraces(s, t, plans, i, step.stage);
    }
  }

  /** The `try` block of the upload: the loop over the plans in input
      order, stopping at the first failure with nothing undone. */
  method StoreAll(s: State, plans: seq<Plan>) returns (b: Batch)
    requires forall j | 0 <= j < |plans| :: Shaped(plans[j])
    ensures b.failure.None? <==> |b.committed| == |plans|
    ensures Accounted(s, plans, b)
  {
    b := Batch(s, [], None);
    while b.failure.None? && |b.committed| < |plans|
      invariant Accounted(s, plans, b)
      decreases |plans| - |b.committed|, if b.failure.None? then 1 else 0
    {
      var step := StoreOne(b.state, plans[|b.committed|]);
      StepKept(s, plans, b, step);
      StepTraced(s, plans, b, step);
      b := Advance(b, step);
    }
  }

  /** The length of a UUID's canonical text; only the length is modelled. */
  const UuidLength := 36

  /** The assumption a random 128-bit identifier justifies, stated rather
      than proved: the batch's UUIDs are 36 characters long and pairwise distinct,
      and none of its paths exists yet. */
  predicate FreshDraws(s: State, files: seq<IncomingFile>, env: Env)
  {
    && (forall j | 0 <= j < |files| :: |env.draw(j).uuid| == UuidLength)
    && (forall a, b | 0 <= a < b < |files| :: env.draw(a).uuid != env.draw(b).uuid)
    && (forall j | 0 <= j < |files| :: PathAt(files, env, j) !in s.tree)
  }

  /** Access paths of draws with distinct UUIDs of one length are never
      one a prefix of the other: both have seven segments, and their file
      names differ within the UUID at their head. */
  lemma DistinctUuidsApart(f: IncomingFile, g: IncomingFile, d: Draw, e: Draw, extname: string -> string)
    requires |d.uuid| == |e.uuid| && d.uuid != e.uuid
    ensures !IsPrefix(AccessPath(f, d, extname), AccessPath(g, e, extname))
  {
    var p, q := AccessPath(f, d, extname), AccessPath(g, e, extname);
    assert p[6][..|d.uuid|] == d.uuid;
    assert q[6][..|e.uuid|] == e.uuid;
    assert p[6] != q[6];
  }

  /** Fresh draws keep a batch's access paths apart. */
  lemma FreshDrawsApart(s: State, rut: string, files: seq<IncomingFile>, env: Env)
    requires FreshDraws(s, files, env)
    ensures Apart(s.tree, Plans(rut, files, env))
  {
    var plans := Plans(rut, files, env);
    PlansShaped(rut, files, env);
    forall a, b | 0 <= a < |plans| && 0 <= b < |plans| && a != b
      ensures !IsPrefix(plans[a].path, plans[b].path)
    {
      if a < b {
        assert env.draw(a).uuid != env.draw(b).uuid;
      } else {
        assert env.draw(b).uuid != env.draw(a).uuid;
      }
      DistinctUuidsApart(files[a], files[b], env.draw(a), env.draw(b), env.extname);
    }
  }

  /** Records of fresh draws appended to a consistent state share no path
      with each other or with the records already there, whose files
      exist while the fresh paths do not. */
  lemma FreshRecordsKeepDistinct(s: State, rut: string, files: seq<IncomingFile>, env: Env, docs: seq<Documento>)
    requires Consistent(s) && DistinctPaths(s) && FreshDraws(s, files, env)
    requires |docs| <= |files| && forall j | 0 <= j < |docs| :: docs[j] == PlannedAt(rut, files, env, j)
    ensures forall t :: DistinctPaths(State(t, s.records + docs))
  {
    var all := s.records + docs;
    var m := |s.records|;
    FreshDrawsApart(s, rut, files, env);
    PlansShaped(rut, files, env);
    var plans := Plans(rut, files, env);
    forall a, b | 0 <= a < b < |all|
      ensures all[a].rutaAcceso != all[b].rutaAcceso
    {
      if b >= m {
        assert all[b].rutaAcceso == plans[b - m].path;
        if a < m {
          assert all[a] in s.records;
        } else {
          assert all[a].rutaAcceso == plans[a - m].path;
          assert !IsPrefix(plans[a - m].path, plans[b - m].path);
        }
      }
    }
  }

  /** The loop's account restated over the request's own files: the
      committed records are the first files' records, appended in order;
      each has its file; nothing is removed, and every node the batch
      created or changed lies on the way to one of the request's access
      paths; well-formedness and consistency are kept. */
  ghost predicate PathsAccount(s: State, rut: string, files: seq<IncomingFile>, env: Env, b: Batch)
  {
    && |b.committed| <= |files|
    && (b.failure.None? <==> |b.committed| == |files|)
    && b.state.records == s.records + b.committed
    && (forall j | 0 <= j < |b.committed| :: b.committed[j] == PlannedAt(rut, files, env, j))
    && (forall j | 0 <= j < |b.committed| ::
          PathAt(files, env, j) in b.state.tree && b.state.tree[PathAt(files, env, j)].File?)
    && (forall q | q in s.tree :: q in b.state.tree)
    && (forall q | q in b.state.tree && (q !in s.tree || b.state.tree[q] != s.tree[q]) ::
          exists j | 0 <= j < |files| :: IsPrefix(q, PathAt(files, env, j)))
    && (WellFormed(s.tree) ==> WellFormed(b.state.tree))
    && (Consistent(s) ==> Consistent(b.state))
  }

  /** What fresh draws add to the account: the committed files hold their
      bytes, the paths after the failed file do not exist, the failed file
      was obstructed before the batch, and access paths stay distinct. */
  ghost predicate FreshPathsAccount(s: State, rut: string, files: seq<IncomingFile>, env: Env, b: Batch)
    requires |b.committed| <= |files|
  {
    && (forall j | 0 <= j < |b.committed| ::
          PathAt(files, env, j) in b.state.tree && b.state.tree[PathAt(files, env, j)] == File(files[j].buffer))
    && (forall j | |b.committed| < j < |files| :: PathAt(files, env, j) !in b.state.tree)
    && (b.failure.Some? ==> |b.committed| < |files| && Obstructed(s.tree, rut, files, env, |b.committed|))
    && (Consistent(s) && DistinctPaths(s) ==> DistinctPaths(b.state))
  }

  lemma AccountedAtPaths(s: State, rut: string, files: seq<IncomingFile>, env: Env, b: Batch)
    requires Accounted(s, Plans(rut, files, env), b)
    requires b.failure.None? <==> |b.committed| == |files|
    ensures PathsAccount(s, rut, files, env, b)
  {
    var plans := Plans(rut, files, env);
    PlansShaped(rut, files, env);
    var n := if b.failure.None? then |b.committed| else |b.committed| + 1;
    forall q | q in b.state.tree && (q !in s.tree || b.state.tree[q] != s.tree[q])
      ensures exists j | 0 <= j < |files| :: IsPrefix(q, PathAt(files, env, j))
    {
      var j :| 0 <= j < n && IsPrefix(q, plans[j].path);
      assert plans[j].path == PathAt(files, env, j);
    }
  }

  lemma FreshAtPaths(s: State, rut: string, files: seq<IncomingFile>, env: Env, b: Batch)
    requires Accounted(s, Plans(rut, files, env), b) && FreshDraws(s, files, env)
    requires b.failure.None? <==> |b.committed| == |files|
    ensures |b.committed| <= |files| && FreshPathsAccount(s, rut, files, env, b)
  {
    var plans := Plans(rut, files, env);
    PlansShaped(rut, files, env);
    FreshDrawsApart(s, rut, files, env);
    if b.failure.Some? {
      assert plans[|b.committed|] == PlanFor(rut, files[|b.committed|], env.draw(|b.committed|), env.extname);
    }
    if Consistent(s) && DistinctPaths(s) {
      FreshRecordsKeepDistinct(s, rut, files, env, b.committed);
    }
  }

  /** The loop run over a request's files. */
  method StoreRequest(s: State, rut: string, files: seq<IncomingFile>, env: Env) returns (b: Batch)
    ensures PathsAccount(s, rut, files, env, b)
    ensures FreshDraws(s, files, env) ==> FreshPathsAccount(s, rut, files, env, b)
  {
    var plans := Plans(rut, files, env);
    PlansShaped(rut, files, env);
    b := StoreAll(s, plans);
    AccountedAtPaths(s, rut, files, env, b);
    if FreshDraws(s, files, env) {
      FreshAtPaths(s, rut, files, env, b);
    }
  }

  /** What an upload answers and leaves behind: an empty batch is
      NotFound and touches nothing. A success lists one planned record per
      file, in input order, each with its file; any other failure is the
      internal server error with the earlier files' records kept. Under
      fresh draws a failure comes exactly at an obstructed file. Nothing is
      removed, only nodes on the way to the request's paths change, and
      the store's invariants are kept. */
  ghost predicate UploadAccount(s: State, rut: string, files: seq<IncomingFile>, env: Env, r: Response<Listing>)
  {
    && (|files| == 0 ==> r == Response(s, Err(NotFound(NoFilesMessage))))
    && (r.reply.Ok? ==>
          && |files| > 0
          && r.reply.value.message == UploadedMessage
          && |r.reply.value.documentos| == |files|
          && r.state.records == s.records + r.reply.value.documentos
          && (forall j | 0 <= j < |files| :: r.reply.value.documentos[j] == PlannedAt(rut, files, env, j))
          && (forall j | 0 <= j < |files| :: PathAt(files, env, j) in r.state.tree && r.state.tree[PathAt(files, env, j)].File?))
    && (r.reply.Ok? && FreshDraws(s, files, env) ==>
          forall j | 0 <= j < |files| :: r.state.tree[PathAt(files, env, j)] == File(files[j].buffer))
    && (r.reply.Err? && |files| > 0 ==>
          && r.reply.error == InternalServerError(UploadFailedMessage)
          && |s.records| <= |r.state.records| < |s.records| + |files|
          && r.state.records[..|s.records|] == s.records
          && (forall j | |s.records| <= j < |r.state.records| ::
                r.state.records[j] == PlannedAt(rut, files, env, j - |s.records|))
          && (FreshDraws(s, files, env) ==>
                forall j | |r.state.records| - |s.records| < j < |files| :: PathAt(files, env, j) !in r.state.tree))
    && (forall j | 0 <= j < |r.state.records| - |s.records| ::
          PathAt(files, env, j) in r.state.tree && r.state.tree[PathAt(files, env, j)].File?)
    && (r.reply.Err? && |files| > 0 && FreshDraws(s, files, env) ==>
          && |s.records| <= |r.state.records| < |s.records| + |files|
          && Obstructed(s.tree, rut, files, env, |r.state.records| - |s.records|))
    && (|files| > 0 && FreshDraws(s, files, env) &&
        (forall j | 0 <= j < |files| :: !Obstructed(s.tree, rut, files, env, j)) ==>
          r.reply.Ok?)
    && (forall q | q in s.tree :: q in r.state.tree)
    && (forall q | q in r.state.tree && (q !in s.tree || r.state.tree[q] != s.tree[q]) ::
          exists j | 0 <= j < |files| :: IsPrefix(q, PathAt(files, env, j)))
    && (WellFormed(s.tree) ==> WellFormed(r.state.tree))
    && (Consistent(s) ==> Consistent(r.state))
    && (Consistent(s) && DistinctPaths(s) && FreshDraws(s, files, env) ==> DistinctPaths(r.state))
  }

  /** `cargarDocumentos`: an empty batch is NotFound and touches nothing;
      otherwise every failure, whatever its stage, becomes an internal
      server error and leaves the files and records of earlier files in
      place. */
  method Upload(s: State, rut: string, files: seq<IncomingFile>, env: Env) returns (r: Response<Listing>)
    ensures UploadAccount(s, rut, files, env, r)
  {
    if |files| == 0 {
      return Response(s, Err(NotFound(NoFilesMessage)));
    }
    var b := StoreRequest(s, rut, files, env);
    if b.failure.None? {
      return Response(b.state, Ok(Listing(UploadedMessage, b.committed)));
    }
    assert (s.records + b.committed)[..|s.records|] == s.records;
    return Response(b.state, Err(InternalServerError(UploadFailedMessage)));
  }

  // ---------------------------------------------------------------------
  // Query

  /** `find({ rut_usuario })`: the owner's records in stored order. */
  function OwnedBy(records: seq<Documento>, rut: string): (r: seq<Documento>)
    ensures forall x :: x in r <==> x in records && x.rutUsuario == rut
    ensures |r| <= |records|
    decreases |records|
  {
    if |records| == 0 then []
    else
      var last := records[|records| - 1];
      OwnedBy(records[..|records| - 1], rut) + (if last.rutUsuario == rut then [last] else [])
  }

  /** `consultarDocumentos`: reads only; an owner without documents is NotFound. */
  function Query(s: State, rut: string): (r: Response<Listing>)
    ensures r.state == s
    ensures r.reply.Ok? <==> exists x | x in s.records :: x.rutUsuario == rut
    ensures r.reply.Ok? ==> r.reply.value == Listing(QueriedMessage, OwnedBy(s.records, rut))
    ensures r.reply.Err? ==> r.reply.error == NotFound(NoDocumentsMessage)
  {
    var docs := OwnedBy(s.records, rut);
    assert forall x | x in s.records && x.rutUsuario == rut :: x in docs;
    assert |docs| > 0 ==> docs[0] in docs;
    Response(s, if |docs| == 0 then Err(NotFound(NoDocumentsMessage)) else Ok(Listing(QueriedMessage, docs)))
  }

  // ---------------------------------------------------------------------
  // Delete

  /** The position of the first record with the given assigned name, the
      one `findOneAndDelete` picks. */
  function FindByName(records: seq<Documento>, name: string): (r: Option<nat>)
    ensures r.Some? ==> r.value < |records| && records[r.value].nombreAsignado == name
    ensures r.Some? ==> forall j | 0 <= j < r.value :: records[j].nombreAsignado != name
    ensures r.None? <==> forall j | 0 <= j < |records| :: records[j].nombreAsignado != name
    decreases |records|
  {
    if |records| == 0 then None
    else if records[0].nombreAsignado == name then Some(0)
    else
      match FindByName(records[1..], name)
      case None => None
      case Some(j) => Some(j + 1)
  }

  function RemoveAt(records: seq<Documento>, i: nat): (r: seq<Documento>)
    requires i < |records|
    ensures |r| == |records| - 1
    ensures forall j | 0 <= j < i :: r[j] == records[j]
    ensures forall j | i <= j < |r| :: r[j] == records[j + 1]
  {
    records[..i] + records[i + 1..]
  }

  /** Which disk calls of a deletion throw: the unlink of the record's
      file, and the listings and removals of the walk above it. */
  datatype DeleteFaults = DeleteFaults(unlink: bool, walk: WalkFaults)

  const NoDeleteFaults := DeleteFaults(false, NoWalkFaults)

  /** No listing or removal throws on a directory strictly between the
      working directory and `p`: those are the only directories the walk
      from `p`'s parent can visit. */
  predicate WalkClear(w: WalkFaults, p: Path)
  {
    forall k | 1 <= k < |p| :: p[..k] !in w.list && p[..k] !in w.remove
  }

  /** The unlink of `p` does not throw, and neither does the walk above it. */
  predicate ClearAbove(f: DeleteFaults, p: Path)
  {
    !f.unlink && WalkClear(f.walk, p)
  }

  /** What deleting does on disk once the record is gone: unlink whatever
      is at `p` unless nothing is there, then prune upward from its parent.
      Unlinking a directory throws, as does an unlink the environment makes
      fail, and either leaves the tree as it was. */
  function RemoveFromDisk(t: Tree, p: Path, f: DeleteFaults): (r: PruneOutcome)
  {
    if p in t && (t[p].Dir? || f.unlink) then PruneOutcome(t, p, true)
    else Prune(t - {p}, Parent(p), f.walk)
  }

  lemma RemoveAtSplits(records: seq<Documento>, i: nat)
    requires i < |records|
    ensures multiset(records) - multiset(RemoveAt(records, i)) == multiset{records[i]}
    ensures multiset(RemoveAt(records, i)) <= multiset(records)
  {
    assert records == records[..i] + [records[i]] + records[i + 1..];
  }

  /** `eliminarDocumento`: removes the first record with the name, then
      its file if anything exists at the path, then prunes empty
      directories upward from the file's parent. Every throw on disk comes
      after the record is already gone and answers with the framework's
      generic server error. */
  function Delete(s: State, name: string, f: DeleteFaults): (r: Response<string>)
    ensures r.reply.Ok? ==> r.reply.value == DeletedMessage
    ensures r.reply.Err? ==>
              r.reply.error == NotFound(DocumentNotFoundMessage) || r.reply.error == InternalServerError(UnhandledMessage)
  {
    match FindByName(s.records, name)
    case None => Response(s, Err(NotFound(DocumentNotFoundMessage)))
    case Some(i) =>
      var disk := RemoveFromDisk(s.tree, s.records[i].rutaAcceso, f);
      Response(State(disk.tree, RemoveAt(s.records, i)),
               if disk.failed then Err(InternalServerError(UnhandledMessage)) else Ok(DeletedMessage))
  }

  /** The reply is NotFound exactly when no record has the name, and then
      nothing changes. */
  lemma DeleteNotFound(s: State, name: string, f: DeleteFaults)
    ensures var r := Delete(s, name, f);
            && ((forall x | x in s.records :: x.nombreAsignado != name) <==>
                  r.reply == Err(NotFound(DocumentNotFoundMessage)))
            && (r.reply == Err(NotFound(DocumentNotFoundMessage)) ==> r.state == s)
  {
  }

  /** When a record has the name, exactly the first such record is removed,
      whatever happens on disk afterwards. */
  lemma DeleteRemovesFirstMatch(s: State, name: string, f: DeleteFaults)
    requires exists x | x in s.records :: x.nombreAsignado == name
    ensures FindByName(s.records, name).Some?
    ensures var i := FindByName(s.records, name).value;
            var r := Delete(s, name, f);
            && r.state.records == s.records[..i] + s.records[i + 1..]
            && multiset(s.records) - multiset(r.state.records) == multiset{s.records[i]}
            && multiset(r.state.records) <= multiset(s.records)
  {
    var i := FindByName(s.records, name).value;
    RemoveAtSplits(s.records, i);
  }

  /** On disk, a found record's file is unlinked unless its path is a
      directory or the unlink throws (either fails and changes nothing),
      and then exactly the chain of empty directories above it up to the
      prune's stop goes; every other node stays as it was. The reply is the
      success message exactly when neither the unlink nor the prune
      failed. */
  lemma DeleteTree(s: State, name: string, f: DeleteFaults)
    requires FindByName(s.records, name).Some?
    ensures var p := s.records[FindByName(s.records, name).value].rutaAcceso;
            var r := Delete(s, name, f);
            && (p in s.tree && (s.tree[p].Dir? || f.unlink) ==>
                  r.state.tree == s.tree && r.reply == Err(InternalServerError(UnhandledMessage)))
            && (!(p in s.tree && (s.tree[p].Dir? || f.unlink)) ==>
                  var pr := Prune(s.tree - {p}, Parent(p), f.walk);
                  && p !in r.state.tree
                  && (forall q | q in s.tree && q != p :: q in r.state.tree <==> !OnChain(q, Parent(p), pr.stop))
                  && (forall q | q in s.tree && q != p && OnChain(q, Parent(p), pr.stop) :: s.tree[q].Dir?)
                  && (forall q | q in r.state.tree :: q in s.tree && r.state.tree[q] == s.tree[q])
                  && (r.reply.Ok? <==> !pr.failed))
  {
    var p := s.records[FindByName(s.records, name).value].rutaAcceso;
    if !(p in s.tree && (s.tree[p].Dir? || f.unlink)) {
      PruneSpec(s.tree - {p}, Parent(p), f.walk);
    }
  }

  /** Deleting orphans no node, whatever throws. */
  lemma DeleteKeepsWellFormed(s: State, name: string, f: DeleteFaults)
    requires WellFormed(s.tree)
    ensures WellFormed(Delete(s, name, f).state.tree)
  {
    var i := FindByName(s.records, name);
    if i.Some? {
      var p := s.records[i.value].rutaAcceso;
      if !(p in s.tree && (s.tree[p].Dir? || f.unlink)) {
        RemoveFileKeepsWellFormed(s.tree, p);
        PruneKeepsWellFormed(s.tree - {p}, Parent(p), f.walk);
      }
    }
  }

  /** Removing a file whose directories all exist, with no fault on its
      way, succeeds: every directory the walk meets exists, and none of its
      calls throws. */
  lemma RemoveFileSucceeds(t: Tree, p: Path, f: DeleteFaults)
    requires WellFormed(t) && p in t && t[p].File?
    requires ClearAbove(f, p)
    ensures !RemoveFromDisk(t, p, f).failed
  {
    var pr := Prune(t - {p}, Parent(p), f.walk);
    PruneSpec(t - {p}, Parent(p), f.walk);
    if pr.failed {
      AncestorsAreDirs(t, p, pr.stop);
      assert false;
    }
  }

  /** On a consistent, well-formed state deleting an existing document
      succeeds unless a disk call on its file or a directory above it
      throws; a failing unlink always surfaces as the generic server
      error. */
  lemma DeleteSucceeds(s: State, name: string, f: DeleteFaults)
    requires WellFormed(s.tree) && Consistent(s)
    requires exists x | x in s.records :: x.nombreAsignado == name
    ensures var p := s.records[FindByName(s.records, name).value].rutaAcceso;
            ClearAbove(f, p) ==> Delete(s, name, f).reply == Ok(DeletedMessage)
    ensures f.unlink ==> Delete(s, name, f).reply == Err(InternalServerError(UnhandledMessage))
  {
    var i := FindByName(s.records, name).value;
    var p := s.records[i].rutaAcceso;
    assert s.records[i] in s.records;
    if ClearAbove(f, p) {
      RemoveFileSucceeds(s.tree, p, f);
    }
  }
  /** Removing a path that no longer exists skips the unlink, and the walk
      from its parent succeeds unless that parent is a file or a call of
      the walk throws. */
  lemma RemoveMissingSucceeds(t: Tree, p: Path, f: DeleteFaults)
    requires WellFormed(t) && p !in t
    requires WalkClear(f.walk, p) && !(Parent(p) in t && t[Parent(p)].File?)
    ensures !RemoveFromDisk(t, p, f).failed
  {
    assert t - {p} == t;
    var d := Parent(p);
    var pr := Prune(t, d, f.walk);
    PruneStops(t, d, f.walk);
    if pr.stop != [] && pr.stop in t {
      assert pr.stop == p[..|pr.stop|];
      if pr.stop != d {
        assert d[..|d|] == d;
        AncestorsAreDirs(t, d, pr.stop);
      }
    }
  }

  /** Deleting a document whose file is already gone is not an error: it
      answers success unless the file's directory is a file or a call of
      the walk above it throws. */
  lemma DeleteMissingFileSucceeds(s: State, name: string, f: DeleteFaults)
    requires WellFormed(s.tree)
    requires exists x | x in s.records :: x.nombreAsignado == name
    ensures var p := s.records[FindByName(s.records, name).value].rutaAcceso;
            p !in s.tree && WalkClear(f.walk, p) && !(Parent(p) in s.tree && s.tree[Parent(p)].File?) ==>
              Delete(s, name, f).reply == Ok(DeletedMessage)
  {
    var p := s.records[FindByName(s.records, name).value].rutaAcceso;
    if p !in s.tree && WalkClear(f.walk, p) && !(Parent(p) in s.tree && s.tree[Parent(p)].File?) {
      RemoveMissingSucceeds(s.tree, p, f);
    }
  }


  /** Removal from disk keeps every file other than the one at `p`: the
      prune removes only directories. */
  lemma RemoveFromDiskKeepsOtherFiles(t: Tree, p: Path, f: DeleteFaults)
    ensures var r := RemoveFromDisk(t, p, f);
            forall q | q in t && q != p && t[q].File? :: q in r.tree && r.tree[q] == t[q]
  {
    if !(p in t && (t[p].Dir? || f.unlink)) {
      PruneSpec(t - {p}, Parent(p), f.walk);
    }
  }

  /** With distinct paths, deleting keeps every remaining record's file:
      the unlinked file was the deleted record's, and the prune removes
      only directories. */
  lemma DeleteKeepsConsistent(s: State, name: string, f: DeleteFaults)
    requires Consistent(s) && DistinctPaths(s)
    ensures Consistent(Delete(s, name, f).state) && DistinctPaths(Delete(s, name, f).state)
  {
    var found := FindByName(s.records, name);
    if found.Some? {
      var i := found.value;
      var p := s.records[i].rutaAcceso;
      var rest := RemoveAt(s.records, i);
      var disk := RemoveFromDisk(s.tree, p, f);
      assert Delete(s, name, f).state == State(disk.tree, rest);
      RemoveFromDiskKeepsOtherFiles(s.tree, p, f);
      forall j | 0 <= j < |rest|
        ensures rest[j].rutaAcceso in disk.tree && disk.tree[rest[j].rutaAcceso].File?
      {
        var k := if j < i then j else j + 1;
        assert rest[j] == s.records[k] && s.records[k] in s.records;
      }
      forall a, b | 0 <= a < b < |rest|
        ensures rest[a].rutaAcceso != rest[b].rutaAcceso
      {
        var ka, kb := if a < i then a else a + 1, if b < i then b else b + 1;
        assert rest[a] == s.records[ka] && rest[b] == s.records[kb];
      }
    }
  }
}

=== FILE: filetree.dfy ===
/** The directory tree the service writes its uploads into, relative to the
    process's working directory.

    A path is a sequence of segments; the empty path is the working directory
    itself, which always exists and is never a key of the tree. Every other
    existing path maps to a directory or to a file with its bytes. */
module FileTree {
  import opened Wrappers

  newtype byte = x: int | 0 <= x < 256

  type Segment = string
  type Path = seq<Segment>

  datatype Node = Dir | File(content: seq<byte>)

  type Tree = map<Path, Node>

  /** `path.dirname`: drops the last segment; the working directory is its
      own parent. */
  function Parent(p: Path): (q: Path)
    ensures p != [] ==> |q| == |p| - 1 && IsPrefix(q, p)
  {
    if |p| == 0 then [] else p[..|p| - 1]
  }

  predicate IsPrefix(q: Path, p: Path)
  {
    |q| <= |p| && p[..|q|] == q
  }

  predicate IsChild(k: Path, d: Path)
  {
    |k| == |d| + 1 && k[..|d|] == d
  }

  /** `readdirSync(d).length > 0`. */
  predicate HasChild(t: Tree, d: Path)
  {
    exists k | k in t :: IsChild(k, d)
  }

  /** `d` exists and is a directory; the working directory always is. */
  predicate IsDirIn(t: Tree, d: Path)
  {
    d == [] || (d in t && t[d].Dir?)
  }

  /** The prefixes of a path are the path itself and the prefixes of its parent. */
  lemma PrefixesOfParent(p: Path)
    requires p != []
    ensures forall q | IsPrefix(q, p) :: q == p || IsPrefix(q, Parent(p))
  {
  }

  /** No key is the working directory, and every node hangs under a directory. */
  predicate WellFormed(t: Tree)
  {
    forall p | p in t :: p != [] && IsDirIn(t, Parent(p))
  }

  /** The directories of the tree: the measure of the upward prune. */
  function Dirs(t: Tree): set<Path>
  {
    set p | p in t && t[p].Dir?
  }

  /** `fs.mkdirSync(p, { recursive: true })`: creates every missing
      ancestor of `p` and `p` itself, and fails when one of them exists as
      a file. */
  function MakeDirectories(t: Tree, p: Path): (r: Option<Tree>)
    decreases |p|
  {
    if p == [] then Some(t)
    else
      match MakeDirectories(t, Parent(p))
      case None => None
      case Some(t1) =>
        if p in t1 then (if t1[p].Dir? then Some(t1) else None)
        else Some(t1[p := Dir])
  }

  /** What a successful creation `r` of `p` changes: it keeps every node
      and adds only prefixes of `p`. */
  predicate CreationFrame(t: Tree, p: Path, r: Option<Tree>)
  {
    && (r.Some? ==> forall q | q in t :: q in r.value && r.value[q] == t[q])
    && (r.Some? ==> forall q | q in r.value && q !in t :: q != [] && IsPrefix(q, p))
  }

  /** When the creation `r` of `p` succeeds: exactly when no node on the
      way is a file, and then every prefix of `p` is a directory. */
  ghost predicate CreationOutcome(t: Tree, p: Path, r: Option<Tree>)
  {
    && (r.Some? <==> forall q | q in t && q != [] && IsPrefix(q, p) :: t[q].Dir?)
    && (r.Some? ==> forall q | q != [] && IsPrefix(q, p) :: q in r.value && r.value[q].Dir?)
  }

  /** A successful creation keeps every node and adds only prefixes. */
  lemma {:induction false} MakeDirectoriesFrame(t: Tree, p: Path)
    ensures CreationFrame(t, p, MakeDirectories(t, p))
    decreases |p|
  {
    if p != [] {
      PrefixesOfParent(p);
      MakeDirectoriesFrame(t, Parent(p));
    }
  }

  /** Creation succeeds exactly when nothing on the way is a file. */
  lemma {:induction false} MakeDirectoriesOutcome(t: Tree, p: Path)
    ensures CreationOutcome(t, p, MakeDirectories(t, p))
    decreases |p|
  {
    if p != [] {
      PrefixesOfParent(p);
      MakeDirectoriesFrame(t, Parent(p));
      MakeDirectoriesOutcome(t, Parent(p));
    }
  }

  /** Each directory the creation adds hangs under a directory. */
  lemma {:induction false} MakeDirectoriesKeepsWellFormed(t: Tree, p: Path)
    requires WellFormed(t)
    ensures MakeDirectories(t, p).Some? ==> WellFormed(MakeDirectories(t, p).value)
    decreases |p|
  {
    if p != [] {
      MakeDirectoriesKeepsWellFormed(t, Parent(p));
      var r1 := MakeDirectories(t, Parent(p));
      if r1.Some? && p !in r1.value {
        MadeIsDir(t, Parent(p));
      }
    }
  }

  /** A successful creation leaves `p` itself a directory. */
  lemma MadeIsDir(t: Tree, p: Path)
    requires MakeDirectories(t, p).Some?
    ensures IsDirIn(MakeDirectories(t, p).value, p)
  {
    MakeDirectoriesOutcome(t, p);
    assert IsPrefix(p, p);
  }

  /** Creation succeeds exactly when no existing prefix of `p` is a file;
      it then makes every prefix a directory, keeps every existing node
      and adds nothing off the path. */
  lemma MakeDirectoriesSpec(t: Tree, p: Path)
    ensures var r := MakeDirectories(t, p);
            && CreationOutcome(t, p, r)
            && CreationFrame(t, p, r)
            && (r.Some? && WellFormed(t) ==> WellFormed(r.value))
  {
    MakeDirectoriesOutcome(t, p);
    MakeDirectoriesFrame(t, p);
    if WellFormed(t) {
      MakeDirectoriesKeepsWellFormed(t, p);
    }
  }

  /** `fs.writeFileSync(p, bytes)`: creates or truncates the file `p`. It
      fails when the parent is not an existing directory or `p` is itself a
      directory. */
  function WriteFile(t: Tree, p: Path, bytes: seq<byte>): (r: Option<Tree>)
    ensures r.Some? ==> p in r.value && r.value[p] == File(bytes)
  {
    if p != [] && IsDirIn(t, Parent(p)) && !(p in t && t[p].Dir?) then Some(t[p := File(bytes)])
    else None
  }

  /** Writing fails exactly when the parent is not a directory or the
      target is one; it changes nothing but the target. */
  lemma WriteFileSpec(t: Tree, p: Path, bytes: seq<byte>)
    ensures var r := WriteFile(t, p, bytes);
            && (r.Some? <==> p != [] && IsDirIn(t, Parent(p)) && !(p in t && t[p].Dir?))
            && (r.Some? ==> forall q | q in r.value && q != p :: q in t && r.value[q] == t[q])
            && (r.Some? ==> forall q | q in t :: q in r.value)
            && (r.Some? && WellFormed(t) ==> WellFormed(r.value))
  {
  }

  /** Where the upward prune stopped, and whether it stopped by failing. */
  datatype PruneOutcome = PruneOutcome(tree: Tree, stop: Path, failed: bool)

  /** `p` lies on the chain of directories strictly below `stop` that ends at `d`. */
  predicate OnChain(p: Path, d: Path, stop: Path)
  {
    IsPrefix(p, d) && |p| > |stop|
  }

  lemma DirsShrink(t: Tree, d: Path)
    requires d in t && t[d].Dir?
    ensures |Dirs(t - {d})| < |Dirs(t)|
  {
    assert Dirs(t - {d}) == Dirs(t) - {d};
  }

  /** Which calls of the walk throw: listing the directory at a path in
      `list`, removing the one at a path in `remove` (a permission error,
      a busy device, whatever the file system reports). */
  datatype WalkFaults = WalkFaults(list: set<Path>, remove: set<Path>)

  const NoWalkFaults := WalkFaults({}, {})

  /** The recursive removal of empty directories: starting at `d`, removes
      a directory when it exists and has no entries, then goes on with its
      parent. It stops at the first directory that is missing or not empty,
      and at the working directory. Listing a file throws, and so does a
      listing or a removal that the environment makes fail; either ends
      the walk with a failure and the tree as it stood at the throw.
      Nothing marks the uploads root, so it is removed like any other
      empty directory. */
  function Prune(t: Tree, d: Path, f: WalkFaults): (r: PruneOutcome)
    ensures IsPrefix(r.stop, d)
    decreases |Dirs(t)|
  {
    if d == [] || d !in t then PruneOutcome(t, d, false)
    else if t[d].File? || d in f.list then PruneOutcome(t, d, true)
    else if HasChild(t, d) then PruneOutcome(t, d, false)
    else if d in f.remove then PruneOutcome(t, d, true)
    else
      DirsShrink(t, d);
      Prune(t - {d}, Parent(d), f)
  }

  /** The walk `r` from `d` removed exactly the chain of directories from
      `d` up to, not including, its stop; each removed node was a
      directory, and no node left behind hangs under a removed one. */
  predicate ChainRemoved(t: Tree, d: Path, r: PruneOutcome)
  {
    && (forall p | p in r.tree :: p in t && r.tree[p] == t[p])
    && (forall p | p in t :: p in r.tree <==> !OnChain(p, d, r.stop))
    && (forall p | p in t && OnChain(p, d, r.stop) :: t[p].Dir?)
    && (forall k | k in r.tree && k != [] :: !(Parent(k) in t && OnChain(Parent(k), d, r.stop)))
  }

  /** Why the walk `r` from `d` stopped where it did: every directory it
      passed over existed and neither its listing nor its removal threw,
      so the stop is the first place the walk could stop. There it met the
      working directory, a missing path, or a directory that still has
      entries; or it failed, which happens exactly at a file, at a
      directory whose listing throws, or at an empty one whose removal
      throws. */
  ghost predicate StopExplained(t: Tree, d: Path, f: WalkFaults, r: PruneOutcome)
    requires IsPrefix(r.stop, d)
  {
    && (forall k | |r.stop| < k <= |d| :: d[..k] in t && d[..k] !in f.list && d[..k] !in f.remove)
    && (r.failed <==>
          && r.stop != [] && r.stop in t
          && (t[r.stop].File? || r.stop in f.list || (!HasChild(r.tree, r.stop) && r.stop in f.remove)))
    && (!r.failed ==> r.stop == [] || r.stop !in t || HasChild(r.tree, r.stop))
  }

  /** The walk removes exactly the empty chain below its stop. */
  lemma {:induction false} PruneRemovesChain(t: Tree, d: Path, f: WalkFaults)
    ensures ChainRemoved(t, d, Prune(t, d, f))
    decreases |Dirs(t)|
  {
    if d != [] && d in t && t[d].Dir? && d !in f.list && !HasChild(t, d) && d !in f.remove {
      DirsShrink(t, d);
      PrefixesOfParent(d);
      PruneRemovesChain(t - {d}, Parent(d), f);
    }
  }

  /** The walk stops, or fails, only for the reasons listed. */
  lemma {:induction false} PruneStops(t: Tree, d: Path, f: WalkFaults)
    ensures StopExplained(t, d, f, Prune(t, d, f))
    decreases |Dirs(t)|
  {
    if d != [] && d in t && t[d].Dir? && d !in f.list && !HasChild(t, d) && d !in f.remove {
      DirsShrink(t, d);
      PruneStops(t - {d}, Parent(d), f);
      PruneRemovesChain(t - {d}, Parent(d), f);
      var r := Prune(t - {d}, Parent(d), f);
      forall k | |r.stop| < k <= |d|
        ensures d[..k] in t && d[..k] !in f.list && d[..k] !in f.remove
      {
        if k < |d| {
          assert d[..k] == Parent(d)[..k];
        } else {
          assert d[..k] == d;
        }
      }
    }
  }

  /** Both halves of the prune's account together. */
  lemma PruneSpec(t: Tree, d: Path, f: WalkFaults)
    ensures ChainRemoved(t, d, Prune(t, d, f)) && StopExplained(t, d, f, Prune(t, d, f))
  {
    PruneRemovesChain(t, d, f);
    PruneStops(t, d, f);
  }

  /** In a well-formed tree every proper ancestor of an existing node,
      other than the working directory, is an existing directory. */
  lemma {:induction false} AncestorsAreDirs(t: Tree, p: Path, q: Path)
    requires WellFormed(t) && p in t
    requires IsPrefix(q, p) && |q| < |p| && q != []
    ensures q in t && t[q].Dir?
    decreases |p|
  {
    var d := Parent(p);
    assert IsDirIn(t, d);
    if q != d {
      PrefixesOfParent(p);
      AncestorsAreDirs(t, d, q);
    }
  }

  /** Removing a file, or a path that does not exist, orphans nothing. */
  lemma RemoveFileKeepsWellFormed(t: Tree, p: Path)
    requires WellFormed(t)
    requires !(p in t && t[p].Dir?)
    ensures WellFormed(t - {p})
  {
  }

  /** The prune never orphans a node: it keeps the tree well formed. */
  lemma PruneKeepsWellFormed(t: Tree, d: Path, f: WalkFaults)
    requires WellFormed(t)
    ensures WellFormed(Prune(t, d, f).tree)
  {
  }
}

=== FILE: lifecycle.dfy ===
/** Properties of the document lifecycle that relate several operations:
    where uploads land, what a query sees after an upload, and how a
    deletion clears the directories it leaves empty. */
module Lifecycle {
  import opened Wrappers
  import opened FileTree
  import opened Documentos
  import Decimal

  // ---------------------------------------------------------------------
  // Where an upload lands

  /** Two uploads share a bucket exactly when their instants agree to the
      minute: the decimal segments are unpadded but never ambiguous. */
  lemma BucketsMeetAtTheMinute(a: Stamp, b: Stamp)
    ensures Bucket(a) == Bucket(b) <==>
              a.year == b.year && a.month == b.month && a.day == b.day &&
              a.hour == b.hour && a.minute == b.minute
  {
    var ca, cb := TimeComponents(a), TimeComponents(b);
    if Bucket(a) == Bucket(b) {
      forall k | 0 <= k < 5
        ensures ca[k] == cb[k]
      {
        assert Bucket(a)[k + 1] == Decimal.IntToString(ca[k]);
        assert Bucket(b)[k + 1] == Decimal.IntToString(cb[k]);
        Decimal.IntToStringInjective(ca[k], cb[k]);
      }
      assert ca[0] == cb[0] && ca[1] == cb[1] && ca[2] == cb[2] && ca[3] == cb[3] && ca[4] == cb[4];
    }
  }

  /** A planned record points into the bucket of its own timestamp, its
      file name is its assigned name followed by the original extension,
      and the assigned name is the bare UUID. */
  lemma PlannedRecordShape(rut: string, f: IncomingFile, d: Draw, extname: string -> string)
    ensures var doc := Planned(rut, f, d, extname);
            && |doc.rutaAcceso| == 7
            && Parent(doc.rutaAcceso) == Bucket(doc.fechaHoraCarga)
            && doc.rutaAcceso[0] == UploadsRoot
            && doc.rutaAcceso[6] == doc.nombreAsignado + extname(f.originalname)
            && doc.nombreAsignado == d.uuid
            && doc.rutUsuario == rut && doc.nombreOriginal == f.originalname
  {
  }

  /** Ensuring the bucket twice is ensuring it once: once it succeeds the
      path exists, so a second attempt changes nothing whatever the
      environment does; and unless a file already sat there, it is a
      directory. */
  lemma EnsureDirectoryIdempotent(t: Tree, dir: Path, first: bool, second: bool)
    requires dir != []
    requires EnsureDirectory(t, dir, first).Some?
    ensures var t1 := EnsureDirectory(t, dir, first).value;
            && dir in t1
            && EnsureDirectory(t1, dir, second) == Some(t1)
            && (!(dir in t && t[dir].File?) ==> t1[dir].Dir?)
  {
  }

  // ---------------------------------------------------------------------
  // What a query sees

  /** Filtering by owner distributes over concatenation. */
  lemma {:induction false} OwnedByAppend(a: seq<Documento>, b: seq<Documento>, rut: string)
    ensures OwnedBy(a + b, rut) == OwnedBy(a, rut) + OwnedBy(b, rut)
    decreases |b|
  {
    if |b| == 0 {
      assert a + b == a;
    } else {
      var b' := b[..|b| - 1];
      assert (a + b)[..|a + b| - 1] == a + b';
      OwnedByAppend(a, b', rut);
    }
  }

  /** Filtering keeps every record of the owner when there are no others. */
  lemma {:induction false} OwnedByAll(docs: seq<Documento>, rut: string)
    requires forall j | 0 <= j < |docs| :: docs[j].rutUsuario == rut
    ensures OwnedBy(docs, rut) == docs
    decreases |docs|
  {
    if |docs| > 0 {
      var init := docs[..|docs| - 1];
      OwnedByAll(init, rut);
      assert init + [docs[|docs| - 1]] == docs;
    }
  }

  /** Filtering by another owner finds nothing. */
  lemma OwnedByNone(docs: seq<Documento>, rut: string, other: string)
    requires forall j | 0 <= j < |docs| :: docs[j].rutUsuario == rut
    requires other != rut
    ensures OwnedBy(docs, other) == []
  {
  }

  /** After records of one owner are appended, that owner's query lists
      their earlier documents followed by the new ones, in order, and every
      other owner's documents are what they were. */
  lemma QueryAfterAppend(s: State, st: State, rut: string, docs: seq<Documento>)
    requires st.records == s.records + docs && |docs| > 0
    requires forall j | 0 <= j < |docs| :: docs[j].rutUsuario == rut
    ensures Query(st, rut) == Response(st, Ok(Listing(QueriedMessage, OwnedBy(s.records, rut) + docs)))
    ensures forall other | other != rut :: OwnedBy(st.records, other) == OwnedBy(s.records, other)
  {
    OwnedByAppend(s.records, docs, rut);
    OwnedByAll(docs, rut);
    assert docs[0] in docs;
    forall other | other != rut
      ensures OwnedBy(st.records, other) == OwnedBy(s.records, other)
    {
      OwnedByAppend(s.records, docs, other);
      OwnedByNone(docs, rut, other);
      assert OwnedBy(s.records, other) + [] == OwnedBy(s.records, other);
    }
  }

  /** An upload followed by the owner's query: after a successful upload
      the query lists the owner's earlier documents and then exactly the
      uploaded ones, in input order. */
  method UploadThenQuery(s: State, rut: string, files: seq<IncomingFile>, env: Env)
    returns (up: Response<Listing>, q: Response<Listing>)
    ensures q == Query(up.state, rut)
    ensures up.reply.Ok? ==>
              q == Response(up.state, Ok(Listing(QueriedMessage, OwnedBy(s.records, rut) + up.reply.value.documentos)))
  {
    up := Upload(s, rut, files, env);
    if up.reply.Ok? {
      var docs := up.reply.value.documentos;
      QueryAfterAppend(s, up.state, rut, docs);
    }
    q := Query(up.state, rut);
  }

  // ---------------------------------------------------------------------
  // Invariant of the two stores

  /** The stores agree: the tree is well formed, every record's file
      exists, and no two records share one. */
  predicate Valid(s: State)
  {
    WellFormed(s.tree) && Consistent(s) && DistinctPaths(s)
  }

  /** Deleting keeps the stores in agreement whatever throws on disk, and
      on agreeing stores the deletion of an existing document succeeds
      when no disk call on its way throws. */
  lemma DeleteKeepsValid(s: State, name: string, f: DeleteFaults)
    requires Valid(s)
    ensures Valid(Delete(s, name, f).state)
    ensures (exists x | x in s.records :: x.nombreAsignado == name) ==>
              var p := s.records[FindByName(s.records, name).value].rutaAcceso;
              ClearAbove(f, p) ==> Delete(s, name, f).reply == Ok(DeletedMessage)
  {
    DeleteKeepsWellFormed(s, name, f);
    DeleteKeepsConsistent(s, name, f);
    if exists x | x in s.records :: x.nombreAsignado == name {
      DeleteSucceeds(s, name, f);
    }
  }

  // ---------------------------------------------------------------------
  // Pruning reaches the top

  function Prefixes(d: Path): set<Path>
  {
    set k | 1 <= k <= |d| :: d[..k]
  }

  /** The tree holding exactly the directories along `d`. */
  function ChainOf(d: Path): Tree
  {
    map q | q in Prefixes(d) :: Dir
  }

  /** Pruning from the end of a bare chain removes every directory on it,
      the first segment included, and stops at the working directory. */
  lemma {:induction false} PruneChain(d: Path)
    ensures Prune(ChainOf(d), d, NoWalkFaults) == PruneOutcome(map[], [], false)
    decreases |d|
  {
    var t := ChainOf(d);
    if d == [] {
      assert Prefixes(d) == {};
      assert t == map[];
    } else {
      assert d[..|d|] == d;
      assert d in t;
      assert !HasChild(t, d) by {
        forall k | k in t
          ensures !IsChild(k, d)
        {
          assert k in Prefixes(d);
        }
      }
      assert Prefixes(d) - {d} == Prefixes(Parent(d)) by {
        forall q | q in Prefixes(d) - {d}
          ensures q in Prefixes(Parent(d))
        {
          var k :| 1 <= k <= |d| && q == d[..k];
          assert k < |d|;
          assert Parent(d)[..k] == q;
        }
        forall q | q in Prefixes(Parent(d))
          ensures q in Prefixes(d) - {d}
        {
          var k :| 1 <= k <= |Parent(d)| && q == Parent(d)[..k];
          assert q == d[..k];
        }
      }
      assert t - {d} == ChainOf(Parent(d));
      PruneChain(Parent(d));
    }
  }

  /** Deleting the last document in a tree that holds nothing but its file
      and its bucket's directories empties the tree: the `uploads`
      directory goes too. */
  lemma LastDeleteRemovesUploadsRoot(rut: string, f: IncomingFile, d: Draw, extname: string -> string, bytes: seq<byte>)
    ensures var doc := Planned(rut, f, d, extname);
            var s := State(ChainOf(Bucket(d.at))[doc.rutaAcceso := File(bytes)], [doc]);
            && [UploadsRoot] in s.tree && s.tree[[UploadsRoot]] == Dir
            && Delete(s, d.uuid, NoDeleteFaults) == Response(State(map[], []), Ok(DeletedMessage))
  {
    var doc := Planned(rut, f, d, extname);
    var p := doc.rutaAcceso;
    var b := Bucket(d.at);
    PlannedRecordShape(rut, f, d, extname);
    var s := State(ChainOf(b)[p := File(bytes)], [doc]);
    assert b[..1] == [UploadsRoot];
    assert [UploadsRoot] in Prefixes(b);
    assert p !in ChainOf(b) by {
      assert forall q | q in Prefixes(b) :: |q| <= |b|;
    }
    assert s.tree - {p} == ChainOf(b);
    PruneChain(b);
  }
}

=== FILE: rut.dfy ===
/** The owner-id format the controller accepts before any upload: seven
    or eight ASCII digits, a dash, and a check character that is a digit
    or the letter k in either case, with nothing before or after. */
module Rut {
  import Decimal

  predicate IsCheckChar(c: char)
  {
    Decimal.IsDigit(c) || c == 'k' || c == 'K'
  }

  /** The whole string matches `^\d{7,8}-[\dkK]$`. */
  predicate IsValidRut(s: string)
  {
    && (|s| == 9 || |s| == 10)
    && Decimal.AllDigits(s[..|s| - 2])
    && s[|s| - 2] == '-'
    && IsCheckChar(s[|s| - 1])
  }

  /** The states of a left-to-right scan: `Digits(n)` after `n` leading
      digits, `Dash` after the dash, `Check` after the check character, and
      `Dead` once no extension can match. */
  datatype Phase = Digits(n: nat) | Dash | Check | Dead

  function Step(q: Phase, c: char): Phase
  {
    match q
    case Digits(n) =>
      if Decimal.IsDigit(c) && n < 8 then Digits(n + 1)
      else if c == '-' && 7 <= n then Dash
      else Dead
    case Dash => if IsCheckChar(c) then Check else Dead
    case Check => Dead
    case Dead => Dead
  }

  /** What a prefix of the input has shown so far, stated without the scan. */
  function PhaseOf(p: string): Phase
  {
    if |p| <= 8 && Decimal.AllDigits(p) then Digits(|p|)
    else if 8 <= |p| <= 9 && Decimal.AllDigits(p[..|p| - 1]) && p[|p| - 1] == '-' then Dash
    else if IsValidRut(p) then Check
    else Dead
  }

  /** Reading one more character moves the scan exactly as the prefix's
      description moves. */
  lemma StepTracksPrefix(p: string, c: char)
    ensures PhaseOf(p + [c]) == Step(PhaseOf(p), c)
  {
    var p' := p + [c];
    assert p'[..|p|] == p;
    assert p'[|p'| - 1] == c;
    if |p| >= 1 {
      assert p'[..|p'| - 2] == p[..|p| - 1];
      assert p'[|p'| - 2] == p[|p| - 1];
    }
    if |p| >= 2 {
      assert p[..|p| - 1][..|p| - 2] == p[..|p| - 2];
    }
  }

  /** The scan of the controller's pattern: accepts exactly the valid ids. */
  method MatchRut(s: string) returns (ok: bool)
    ensures ok <==> IsValidRut(s)
  {
    var q := Digits(0);
    var i := 0;
    while i < |s|
      invariant i <= |s|
      invariant q == PhaseOf(s[..i])
    {
      StepTracksPrefix(s[..i], s[i]);
      assert s[..i + 1] == s[..i] + [s[i]];
      q := Step(q, s[i]);
      i := i + 1;
    }
    assert s[..i] == s;
    ok := q == Check;
  }
}

=== FILE: wrappers.dfy ===
/** Optional values, used for lookups that may find nothing and for
    filesystem steps that may fail. */
module Wrappers {

  datatype Option<+T> = None | Some(value: T) {

    /** Returns the value in Some, or the given default when None. */
    function GetOr(default: T): T
    {
      match this
      case Some(v) => v
      case None => default
    }
  }
}
